=== FILE: README.md ===
# sqsiphon dispatch core, modelled in Dafny

sqsiphon is a Node.js consumer for AWS SQS. It polls a queue and hands every
received message to a user handler, then deletes the message when the handler
succeeded. Messages without a FIFO `MessageGroupId` are processed
concurrently. The messages of each FIFO group are processed one after another
in group order, and a group is abandoned at its first failure.

This project models that dispatch logic as pure functions. Each operation
returns a trace of what it did (handler calls, delete calls, notifications
emitted, nested calls) together with how it settled (resolved with a value,
or rejected with an error). The outcomes of the user handler, of
`sqs.deleteMessage` and of the receive call are inputs (oracles). The modules
follow the source files:

- `Messages` (messages.dfy): messages, group ids and the `"default"` key.
- `Trace` (trace.dfy): actions, settlements, trace projections, and
  `Promise.all` over a list of calls.
- `Partition` (partition.dfy): `partitionMessages`.
- `FifoSort` (fifo_sort.dfy): `Array.prototype.sort` with the configured
  `fifoSorter`.
- `MessageProcessor` (message_processor.dfy): `handleMessage`.
- `GroupRunner` (group_runner.dfy): `groupHandler`.
- `Dispatcher` (dispatcher.dfy): `processMessages`. Its partitioner,
  handleMessage and groupHandler are parameters, as in the source.
- `Poller` (poller.dfy): `poller` and the shape of `getMessages`' result.
- `Lifecycle` (lifecycle.dfy): the running flag, `start`, `stop`, and the
  `doPoll` and keep-alive loops, counted as live loops.
- `Factory` (factory.dfy): `sqsiphonFactory`, covering option merging,
  validation order and the receive parameters.
- `Pipeline` (pipeline.dfy): the dispatcher and one poll cycle with the
  default collaborators wired in, and what they do with every message of a
  batch. The wired-in partitioner is the corrected one (see Findings). The
  dispatch with the partitioner as written is stated separately, by what it
  loses.

One behaviour follows the code rather than the documented intent.
`poller` reports a fetch failure with `app.emit('error', error)` when nobody
listens for `request-error`. An EventEmitter throws when `'error'` is emitted
with no `'error'` listener. So the cycle rejects in exactly that case, and
resolves `undefined` in every other case. The listener counts are an input.

## Model

| member | source | states |
|---|---|---|
| Partition.PartitionMessages | lib/partition-messages.js:18-36 | The result always has a default partition. It holds exactly the batch's messages that have no attributes, no or an empty group id, or the group id "default", in arrival order. Each group partition holds exactly the messages with its id, in arrival order. Group ids are distinct, every id in the batch has a partition, and no group partition is empty. |
| Partition.ScanPartitioned | lib/partition-messages.js:22-34 | The loop keeps the partition object exact after every message: the invariant behind `PartitionMessages`. |
| Partition.PlaceKeepsPartitioned | lib/partition-messages.js:23-33 | One loop iteration, whether it goes to default, appends to an existing group or creates a group, turns an exact partitioning of a prefix into one of the prefix plus the message. |
| Partition.PartitionConserves | lib/partition-messages.js:22-34 | Nothing is lost or duplicated: the partitions together hold every batch message exactly as often as the batch does, and their lengths sum to the batch length. |
| Partition.ExactlyOnePartition | lib/partition-messages.js:23-33 | Every batch message is in the default partition exactly when it is ungrouped or in group "default". Otherwise it is in exactly one partition, the one named by its group id. |
| Partition.PartitionExample | lib/partition-messages.test.js:6-23 | The unit-test batch gives default = [non-fifo], one = [foo, bar], two = [foo]. |
| Partition.PartitionSnoc | lib/partition-messages.js:22-34 | Partitioning one more message is one more loop iteration on the prefix's partitions. |
| Partition.ProtoGroupLost | lib/partition-messages.js:28-32 | As written, a batch of one message in group "__proto__" yields no partition that holds it, while the corrected partitioner keeps it. |
| Partition.AsWrittenAgrees | lib/partition-messages.js:18-36 | On every batch without a "__proto__" group, the code as written and the corrected partitioner give the same partitions. |
| Partition.AsWrittenSeesVisible | lib/partition-messages.js:18-36 | On every batch, the code as written gives the partitions the corrected partitioner gives for the batch with its "__proto__" messages removed. |
| Partition.VisibleMembers | lib/partition-messages.js:28-32 | A message survives that removal exactly when it is in the batch and its key is not "__proto__". |
| Partition.VisibleSplit | lib/partition-messages.js:28-32 | The batch is the surviving messages plus its "__proto__" group, counted with multiplicity. |
| Partition.SelectVisible | lib/partition-messages.js:23-33 | The removal leaves every other key's messages, in order, untouched. |
| FifoSort.Sort | lib/process-messages.js:37 | Sorting a group only permutes it: same multiset, same length. |
| FifoSort.NoOpSortKeepsOrder | index.js:147 | With the default sorter `() => {}` every group keeps its arrival order. |
| FifoSort.SortedKeepsOrder | lib/process-messages.js:37 | The sort is stable: a group the comparator already finds in order, with no element put before an earlier one, comes back unchanged. |
| FifoSort.CompareStrings | lib/process-messages.js:37 | The string comparison behind sort's default order is zero exactly for equal strings and is always -1, 0 or 1. |
| FifoSort.CompareStringsAntisymmetric | lib/process-messages.js:37 | Swapping the two strings flips the sign of the comparison. |
| FifoSort.UndefinedSortKeepsOrder | lib/process-messages.js:37 | Sorting with `undefined` compares string forms. Every message record has the same form, so no group is reordered. |
| FifoSort.SortSorts | lib/process-messages.js:37 | With a consistent comparator (sign symmetric, with a transitive "not after"), the sorted group has no element followed by one the comparator puts before it. |
| FifoSort.BooleanComparatorInconsistent | lib/process-messages.js:37 | A comparator that answers only 0 or 1, like `(a, b) => a.x > b.x`, is not consistent once it answers 1, so no order is promised for it. |
| MessageProcessor.HandleMessage | lib/handle-message.js:18-35 | Never rejects, and resolves `true` exactly when handler and delete both succeeded. The handler is called first, once, with the message itself. The delete is issued once, with the configured queue URL and the message's receipt handle, exactly when the handler succeeded. Exactly one notification is emitted, last: `handled-message`, or `processing-error` carrying the error of the step that failed. |
| GroupRunner.GroupHandler | lib/group-handler.js:16-24 | The loop calls handleMessage on messages 0..k in order, where k is the first message whose result is `false` or that rejects, and on the whole group if none does. Its trace and settlement are `GroupRun`'s. |
| GroupRunner.FirstStop | lib/group-handler.js:17-22 | Every message before the returned position continues the loop, and the message at that position, if any, stops it. |
| GroupRunner.AbortsAtFirstFalse | lib/group-handler.js:17-22 | When message i is the first to resolve `false`, exactly messages 0..i are processed, followed by one `fifo-processing-aborted` carrying message i and the whole group, and the runner resolves. |
| GroupRunner.RejectionPropagates | lib/group-handler.js:17-18 | When message i is the first to stop the loop by rejecting, exactly messages 0..i are processed, no abort is emitted, and the runner rejects with that error. |
| GroupRunner.NoAbortWhenNoneFails | lib/group-handler.js:17-23 | When every result resolves to something other than `false`, every message is processed once, in order, and nothing else is emitted. |
| GroupRunner.RunWithoutRejection | lib/group-handler.js:17-23 | When no call rejects, the runner resolves `undefined`. Its trace is the calls up to the first stop, then the abort notification if a message stopped the group. |
| Trace.All | lib/process-messages.js:28-29 | `Promise.all` over calls: every element is called once, in list order. The combined call rejects exactly when one of them rejects, with the error of the first rejecting call in list order, and otherwise resolves `undefined`. |
| Trace.FirstRejection | lib/process-messages.js:29 | None exactly when every call resolved. Otherwise the error of a rejecting call with no rejection before it. |
| Dispatcher.ProcessMessages | lib/process-messages.js:16-41 | A throwing partitioner rejects the dispatch before any call. Otherwise every default-partition message goes to handleMessage once. The group phase starts only after all of those resolved, and hands each partition, sorted, to one group runner. The whole default phase precedes the group phase in the trace. The dispatch rejects exactly when the partitioner, a handleMessage call or a group runner rejected. It carries the partitioner's error, else the first rejecting handleMessage call's, else the first rejecting group runner's, in list order. Otherwise it resolves `undefined`. |
| Dispatcher.SortGroups | lib/process-messages.js:36-38 | One run per partition, in partition order, each a permutation of its partition, and ordered by the comparator whenever the comparator is consistent. |
| Dispatcher.NoOpSortGroupsKeeps | lib/process-messages.js:36-38 | With the default no-op sorter every run is its partition unchanged, in arrival order. |
| Poller.Poll | lib/poller.js:15-62 | A fetch failure reads the `request-error` listener count and emits `request-error` when there is a listener, else `error`. It rejects exactly when neither event has a listener. An empty batch resolves `undefined` with an empty trace: it does nothing and does not read a listener count. A non-empty batch emits `received-messages` with the batch, then calls processMessages with that batch, and passes on its rejection. |
| Poller.GetMessages | lib/get-messages.js:16-29 | A rejected receive call gives the error. A response without `Messages` gives an empty batch. Otherwise it gives the response's messages. |
| Poller.PollProcessesOnce | lib/poller.js:28-59 | processMessages is called exactly once, with the fetched batch, when the batch is non-empty, and never on a fetch failure or an empty batch. |
| Poller.PollHandlesOnlyFetched | lib/poller.js:28-59 | The user handler is invoked only through processMessages on a non-empty fetched batch. |
| Pipeline.DispatchCoversBatch | lib/process-messages.js:23-40 | With the default collaborators and the corrected partitioner a dispatch resolves `undefined`. The default-partition messages are exactly the batch's ungrouped ones in arrival order. There is one sorted run per group, each a permutation of that group's messages. Runs and default together hold each batch message exactly as often as the batch. |
| Pipeline.DispatchRuns | lib/process-messages.js:23-40 | With the default collaborators and the corrected partitioner no call rejects, so the dispatch resolves and the group phase always runs over every sorted partition. |
| Pipeline.AsWrittenDispatchesVisible | lib/process-messages.js:23-40 | With the partitioner as written, a dispatch is the corrected dispatch of the batch without its "__proto__" messages. |
| Pipeline.AsWrittenDropsProtoGroup | lib/process-messages.js:23-40 | With the partitioner as written, a dispatch still resolves `undefined` and hands the batch's ungrouped messages to handleMessage. The runs and the handler calls cover only the batch minus its "__proto__" group, and the handler never sees a "__proto__" message. |
| Pipeline.HandlerSeesBatch | lib/process-messages.js:28-40 | In one dispatch the user handler sees the default-partition messages, then the processed prefix of each sorted group, and nothing else: never a message more often than the batch holds it. |
| Pipeline.GroupRunWithProcessor | lib/group-handler.js:17-22 | With the default handleMessage a group runner never rejects. It invokes the handler on the group up to and including the first failing message. Every earlier message succeeded. It emits one abort, carrying the first failing message and the group, exactly when some message failed. |
| Pipeline.HandleEach | lib/process-messages.js:28 | handleMessage over a list of messages invokes the user handler on exactly those messages, in order, and emits no abort. |
| Pipeline.DispatchMakesNoProcessCall | lib/process-messages.js:16-41 | A dispatch never calls processMessages again. |
| Pipeline.CycleProcessesOnce | lib/poller.js:28-59 | With the default dispatcher a poll cycle calls processMessages once with the fetched batch exactly when it is non-empty. |
| Pipeline.CycleHandlesOnlyFetched | lib/poller.js:28-59 | With the default dispatcher the handler is invoked in a cycle only on a non-empty fetched batch, exactly as one dispatch of it does. |
| Pipeline.CycleRejection | lib/poller.js:39-45 | With the default dispatcher a cycle rejects exactly when a fetch failure is reported through an `error` notification nobody listens for. |
| Lifecycle.Start | index.js:48-57 | From stopped, `start` sets the flag. It reuses a pending poll loop and a pending keep-alive loop, and schedules one of each only when none is pending. While running it changes nothing. |
| Lifecycle.StartAsWritten | index.js:48-57 | From stopped, `start` as written sets the flag and adds one poll loop and one keep-alive loop to those still pending. While running it changes nothing. |
| Lifecycle.Stop | index.js:74-78 | `stop` clears the flag whatever its value and cancels no scheduled iteration. |
| Lifecycle.DoPoll | index.js:58-64 | An iteration polls exactly when the flag is set. It keeps its loop alive only when it polled and the cycle resolved. A stopped instance's iteration returns without polling, which ends the loop. |
| Lifecycle.KeepAlive | lib/keep-alive.js:3-8 | A keep-alive iteration reschedules itself exactly while running. |
| Lifecycle.StartIdempotent | index.js:50-52 | Starting twice is starting once. |
| Lifecycle.StopIdempotent | index.js:74-78 | Stopping twice is stopping once, and leaves the instance stopped. |
| Lifecycle.RestartDoublesPollLoops | index.js:56-64 | As written, start, stop, start before the pending iteration runs leaves two live poll loops, and both poll. |
| Lifecycle.AtMostOneLoop | index.js:48-78 | With the corrected `start`, no sequence of calls and iterations ever makes more than one poll loop or keep-alive loop live, and a running instance has its keep-alive loop. |
| Lifecycle.RunningKeepsAlive | lib/keep-alive.js:3-8 | As written, a running instance always has a live keep-alive loop, whatever sequence of calls and iterations happened. |
| Lifecycle.StartAgreesWhenIdle | index.js:48-57 | With no loop pending, the corrected `start` is the `start` as written. |
| Factory.MergeOptions | index.js:152 | Every key the caller passes wins, even one set to `undefined`. Every other default is kept. |
| Factory.ReceiveParams | index.js:173 | The receive parameters are `QueueUrl` plus every property the spread copies from `receiveMessageParameters`. Those properties win, including an object's own `QueueUrl`, and `QueueUrl` is the configured queue otherwise. |
| Factory.Spread | index.js:173 | Spread copies an object's own keys, an array's items under their index keys, a string's UTF-16 code units under their index keys, and nothing from any other value. Only an object can supply `QueueUrl`. |
| Factory.IndexedEntries | index.js:173 | The entries copied from an array-like value are exactly its index keys, each holding its item, and none of them is `QueueUrl`. |
| Factory.DecimalInjective | index.js:173 | Distinct indices have distinct decimal keys, so no spread item overwrites another. |
| Factory.ArrayParamsSpreadByIndex | index.js:173 | An array `[x, y]` as parameters yields exactly `QueueUrl`, `"0"` with x and `"1"` with y. |
| Factory.CodeUnits | index.js:173 | A character is one UTF-16 code unit inside the Basic Multilingual Plane. Any other character is a high and a low surrogate that decode back to it. |
| Factory.BmpUnitsAreChars | index.js:173 | A string inside the Basic Multilingual Plane spreads one character per index key. |
| Factory.EmojiSpreadsToSurrogates | index.js:173 | "\u{1F600}" spreads into keys "0" and "1", holding the surrogates 0xD83D and 0xDE00. |
| Factory.Create | index.js:151-185 | The factory fails with the error of the first failing check, in the order `sqs` (truthy), `queueUrl` (non-empty string), `handler` (function). It succeeds exactly when all three pass, with a stopped instance that has no loop scheduled (the lifecycle's initial state), keeps the merged `sqs`, `queueUrl`, `handler` and `fifoSorter` and whose receive parameters are built from the merged options. |
| Factory.SortBySorter | lib/process-messages.js:34-37 | Sorting with the configured `fifoSorter` succeeds exactly when it is a function or `undefined`, and then only permutes the group. `undefined` keeps the group's order. Any other value fails with the comparison-function error. |
| Factory.UndefinedSorterActsAsDefault | index.js:147-181 | An explicit `fifoSorter: undefined` survives the option merge and sorts like the default `() => {}`: every group keeps its arrival order. |
| Factory.DefaultReceiveParamsUsed | index.js:136-146 | Without `receiveMessageParameters` the receive call targets the configured queue with up to 10 messages, a 30-second visibility timeout and all attributes. |
| Factory.UserReceiveParamsReplaceDefaults | index.js:173 | A caller's parameters object replaces the defaults shallowly. Exactly its keys and `QueueUrl` are sent, with its values, and a default it leaves out is not sent. |

## Left out

- Tracing spans, logging and the `opentracing` setup (lib/poller.js:20-26, 30-38, 47, 53-54, 58, 61; index.js:154-160). They are external collaborators and do not affect what is dispatched.
- `setImmediate` and the event loop. Loops are counted, not scheduled. An operation sequence stands for any interleaving of user calls and iterations, and a whole `doPoll` iteration is one step.
- EventEmitter internals. `emit` appends a notification to the trace, `listenerCount` is an input, and exceptions thrown by listeners are not modelled.
- Dispatcher.ProcessMessages: the calls inside `Promise.all` are listed one after another and are not interleaved. When several calls reject, the model reports the first rejection in list order, while the source reports the first to settle.
- Pipeline.DispatchCoversBatch: stated for the corrected partitioner. With the partitioner as written, the "__proto__" group's messages are in no run and are never handled; Pipeline.AsWrittenDropsProtoGroup states exactly that.
- Pipeline.DispatchRuns: stated for the corrected partitioner. With the partitioner as written the runs are those of the batch without its "__proto__" messages, as Pipeline.AsWrittenDispatchesVisible states.
- Dispatcher.ProcessMessages: the FIFO partitions are taken in the order their group ids were first seen. `for...in` lists integer-like ids first, in ascending numeric order, so the order of runs and of group-phase rejections can differ. The runs themselves do not.
- Pipeline.HandlerSeesBatch: group runs are listed in the order their group ids were first seen. `for...in` lists integer-like keys first, in ascending numeric order, so the order of runs in the trace can differ. The multisets do not.
- FifoSort.Sort: a stable insertion sort. For a consistent comparator (sign symmetric, with a transitive "not after") it gives the same result as any stable sort. For other comparators, such as one returning a boolean, the engine's order is implementation-defined and only the permutation is promised. A `fifoSorter` that is neither a function nor `undefined` makes `sort` throw; Factory.SortBySorter states that, but the dispatcher takes an already valid comparator and does not propagate that rejection. A comparator that throws is not modelled.
- Pipeline.DefaultPartition: the partitioner never fails over message records. A `null` entry in a batch, which makes the source throw, is not representable. The dispatcher still models a throwing partitioner as a parameter.
- Factory.Create: handler validity is "is a function". An object that inherits from `Function.prototype` without being callable is not represented. A `queueUrl` that is a lone surrogate is a one-unit string in JavaScript and passes the check, but the model rejects it, because the instance keeps the queue URL as a `string`, which cannot hold one. Numbers are integers: there is no NaN, which is falsy, and no fraction, so `Truthy` and the type checks are exact only for integer numbers.
- Factory.Spread: a function's own enumerable properties, array holes and inherited properties are not represented. A function spreads no keys, and every array index holds an item.
- Receipt handles, queue URLs and error messages are plain strings. A falsy thrown value (`throw undefined`) is not representable.
- The delete call uses the configured queue URL while the receive call uses the receive parameters, which may override `QueueUrl`. The model keeps both values as the source does and proves nothing about their relation.
- `lib/symbols.js` and the prototype and symbol plumbing are not modelled.

## Findings

| source | as written | input that shows it | evidently intended | confidence | as-written member | corrected member |
|---|---|---|---|---|---|---|
| lib/partition-messages.js:28-32 | `partitions[groupId] = [message]` with groupId `"__proto__"` goes through the inherited `__proto__` setter. It replaces the object's prototype instead of adding a key, so `...fifoPartitions` never sees the group. | A batch of one message with `MessageGroupId` `"__proto__"`: no partition holds it, it is never handled and never deleted. | Every grouped message lands in the partition named by its group id. | medium, not executed | Partition.PartitionAsWritten (Partition.ProtoGroupLost, Pipeline.AsWrittenDropsProtoGroup) | Partition.PartitionMessages (Partition.PartitionConserves, Partition.AsWrittenAgrees) |
| index.js:48-64, 74-78 | `stop` only clears the flag, and `start` always schedules a new `doPoll`. A pending iteration that re-reads the flag after a restart keeps its loop alive beside the new one. | `start(); stop(); start();` before the first `doPoll` runs leaves two poll loops that both poll, and likewise two keep-alive loops. | At most one poll loop per instance. | medium, not executed | Lifecycle.StartAsWritten (Lifecycle.RestartDoublesPollLoops) | Lifecycle.Start (Lifecycle.AtMostOneLoop) |

=== FILE: dispatcher.dfy ===
/**
 * The dispatcher (`processMessages`): partition the batch, hand every
 * default-partition message to handleMessage and wait for all of them, then
 * sort each FIFO partition and hand it to its own group runner and wait for
 * all of those. The partitioner, handleMessage and groupHandler are
 * parameters, as in the source, where each can be replaced by the caller.
 */
module Dispatcher {
  import opened Messages
  import opened Trace
  import opened Partition
  import opened FifoSort

  /**
   * One dispatch: the messages handed to handleMessage in the default
   * phase, the sorted partitions handed to group runners, and the settled
   * call with its trace.
   */
  datatype Dispatch = Dispatch(handled: seq<Message>, runs: seq<seq<Message>>, step: Step)

  /**
   * Every FIFO partition sorted with the configured comparator, in
   * partition order: each run is a permutation of its partition, ordered
   * by the comparator whenever the comparator is a consistent ordering.
   */
  function SortGroups(cmp: Comparator, groups: seq<Group>): (r: seq<seq<Message>>)
    ensures |r| == |groups|
    ensures forall i :: 0 <= i < |r| ==> multiset(r[i]) == multiset(groups[i].messages)
    ensures Consistent(cmp) ==> forall i :: 0 <= i < |r| ==> Sorted(cmp, r[i])
  {
    SortsEach(cmp, groups);
    seq(|groups|, i requires 0 <= i < |groups| => Sort(cmp, groups[i].messages))
  }

  lemma SortsEach(cmp: Comparator, groups: seq<Group>)
    ensures Consistent(cmp) ==> forall i :: 0 <= i < |groups| ==> Sorted(cmp, Sort(cmp, groups[i].messages))
  {
    if Consistent(cmp) {
      forall i | 0 <= i < |groups|
        ensures Sorted(cmp, Sort(cmp, groups[i].messages))
      {
        SortSorts(cmp, groups[i].messages);
      }
    }
  }

  /** With the default no-op comparator every run is its partition, in arrival order. */
  lemma NoOpSortGroupsKeeps(groups: seq<Group>)
    ensures forall i :: 0 <= i < |groups| ==> SortGroups(NoOpComparator, groups)[i] == groups[i].messages
  {
    forall i | 0 <= i < |groups|
      ensures SortGroups(NoOpComparator, groups)[i] == groups[i].messages
    {
      NoOpSortKeepsOrder(groups[i].messages);
    }
  }

  /** Some call among `xs` rejected. */
  ghost predicate AnyRejected<T>(xs: seq<T>, call: T -> Step) {
    exists i :: 0 <= i < |xs| && call(xs[i]).completion.Rejected?
  }

  /**
   * `processMessages`. Partitioning runs once; if it throws, the dispatch
   * rejects with that error before any call. Otherwise every default
   * message goes to handleMessage exactly once; only when all of those
   * calls resolved does the group phase start, handing each FIFO partition,
   * sorted, to exactly one group runner; the whole default phase precedes
   * the group phase in the trace. The dispatch rejects exactly when the
   * partitioner, a handleMessage call or a group runner rejected, with the
   * error of the first rejecting handleMessage call in list order, or else
   * of the first rejecting group runner, and otherwise resolves `undefined`.
   */
  function ProcessMessages(batch: seq<Message>, partition: seq<Message> -> Result<Partitions>,
                           handle: Message -> Step, runGroup: seq<Message> -> Step, cmp: Comparator): (r: Dispatch)
    ensures partition(batch).Failure? ==> r == Dispatch([], [], Step(Rejected(partition(batch).error), []))
    ensures partition(batch).Success? ==> r.handled == partition(batch).value.default
    ensures r.runs != [] ==> partition(batch).Success? && !AnyRejected(r.handled, handle)
    ensures partition(batch).Success? && !AnyRejected(r.handled, handle)
            ==> r.runs == SortGroups(cmp, partition(batch).value.groups)
    ensures r.step.trace == Calls(r.handled, handle, HandleMessageCall) + Calls(r.runs, runGroup, GroupHandlerCall)
    ensures r.step.completion.Rejected?
            <==> partition(batch).Failure? || AnyRejected(r.handled, handle) || AnyRejected(r.runs, runGroup)
    ensures r.step.completion.Rejected? && partition(batch).Success?
            ==> if AnyRejected(r.handled, handle) then RejectsFirst(r.handled, handle, r.step.completion.error)
                else RejectsFirst(r.runs, runGroup, r.step.completion.error)
    ensures r.step.completion.Resolved? ==> r.step.completion.value == Undefined
  {
    match partition(batch)
    case Failure(e) => Dispatch([], [], Step(Rejected(e), []))
    case Success(p) =>
      var defaults := All(p.default, handle, HandleMessageCall);
      if defaults.completion.Rejected? then
        assert Calls([], runGroup, GroupHandlerCall) == [];
        Dispatch(p.default, [], Step(defaults.completion, defaults.trace + []))
      else
        var runs := SortGroups(cmp, p.groups);
        var fifo := All(runs, runGroup, GroupHandlerCall);
        Dispatch(p.default, runs, Step(fifo.completion, defaults.trace + fifo.trace))
  }
}

=== FILE: factory.dfy ===
/**
 * The factory (`sqsiphonFactory`): merge the caller's options over the
 * defaults, validate the three required options in a fixed order, and
 * build the parameters of the receive call.
 */
module Factory {
  import opened Messages
  import opened FifoSort
  import Lifecycle

  /** The JavaScript values an option can hold, as far as the factory looks at them. */
  datatype JsValue =
    | JsUndefined
    | JsNull
    | Bool(b: bool)
    | Num(n: int)
    | Str(s: string)
    | Arr(items: seq<JsValue>)
    | Obj(props: map<string, JsValue>)
    | Func
    /** A one-code-unit string holding half of a surrogate pair, which `string` cannot hold. */
    | LoneSurrogate(unit: int)

  /** JavaScript truthiness: `undefined`, `null`, `false`, `0` and `""` are falsy. */
  predicate Truthy(v: JsValue) {
    match v
    case JsUndefined => false
    case JsNull => false
    case Bool(b) => b
    case Num(n) => n != 0
    case Str(s) => s != ""
    case _ => true
  }

  /** The default `receiveMessageParameters`. */
  const DefaultReceiveParameters: map<string, JsValue> :=
    map["AttributeNames" := Arr([Str("All")]),
        "MaxNumberOfMessages" := Num(10),
        "MessageAttributeNames" := Arr([Str("All")]),
        "VisibilityTimeout" := Num(30)]

  /** `defaultOptions`; the default logger is an object and the default `fifoSorter` a function. */
  const DefaultOptions: map<string, JsValue> :=
    map["logger" := Obj(map[]),
        "sqs" := JsUndefined,
        "queueUrl" := JsUndefined,
        "handler" := JsUndefined,
        "receiveMessageParameters" := Obj(DefaultReceiveParameters),
        "fifoSorter" := Func,
        "tracer" := JsUndefined]

  const SqsMissing := Error("must supply `sqs` instance")
  const QueueUrlMissing := Error("must supply string for `queueUrl`")
  const HandlerMissing := Error("must provide `handler` function")
  const SorterInvalid := Error("The comparison function must be either a function or undefined")

  /** A constructed instance: its configuration and its lifecycle state. */
  datatype Instance = Instance(sqs: JsValue, queueUrl: string, handler: JsValue,
                               receiveParams: map<string, JsValue>, fifoSorter: JsValue,
                               engine: Lifecycle.Engine)

  /** `Object.assign({}, defaultOptions, options)`: every key the caller sets, even to `undefined`, wins. */
  function MergeOptions(options: map<string, JsValue>): (opts: map<string, JsValue>)
    ensures opts.Keys == DefaultOptions.Keys + options.Keys
    ensures forall k :: k in options ==> opts[k] == options[k]
    ensures forall k :: k in DefaultOptions && k !in options ==> opts[k] == DefaultOptions[k]
  {
    DefaultOptions + options
  }

  predicate SqsValid(opts: map<string, JsValue>) {
    "sqs" in opts && Truthy(opts["sqs"])
  }

  /** A non-empty string: `!queueUrl || typeof queueUrl !== 'string'` fails for everything else. */
  predicate QueueUrlValid(opts: map<string, JsValue>) {
    "queueUrl" in opts && opts["queueUrl"].Str? && opts["queueUrl"].s != ""
  }

  predicate HandlerValid(opts: map<string, JsValue>) {
    "handler" in opts && opts["handler"].Func?
  }

  /** `n` in decimal, most significant digit first. */
  function Decimal(n: nat): (k: string)
    ensures |k| >= 1 && '0' <= k[0] <= '9'
  {
    var digit := ['0' + (n % 10) as char];
    if n < 10 then digit else Decimal(n / 10) + digit
  }

  /** Distinct numbers have distinct decimal forms. */
  lemma {:induction false} DecimalInjective(i: nat, j: nat)
    requires Decimal(i) == Decimal(j)
    ensures i == j
    decreases i
  {
    var ki, kj := Decimal(i), Decimal(j);
    assert ki[|ki| - 1] == '0' + (i % 10) as char;
    assert kj[|kj| - 1] == '0' + (j % 10) as char;
    assert i % 10 == j % 10;
    if i >= 10 && j >= 10 {
      assert Decimal(i / 10) == ki[..|ki| - 1] == kj[..|kj| - 1] == Decimal(j / 10);
      DecimalInjective(i / 10, j / 10);
    }
  }

  /** The property key JavaScript gives index `i` of an array or a string. */
  function IndexKey(i: nat): string {
    Decimal(i)
  }

  lemma IndexKeyNotQueueUrl(i: nat)
    ensures IndexKey(i) != "QueueUrl"
  {
    assert IndexKey(i)[0] != "QueueUrl"[0];
  }

  lemma IndexKeysDistinct(n: nat)
    ensures forall i, j :: 0 <= i < n && 0 <= j < n && IndexKey(i) == IndexKey(j) ==> i == j
    ensures forall i :: 0 <= i < n ==> IndexKey(i) != "QueueUrl"
  {
    forall i, j | 0 <= i < n && 0 <= j < n && IndexKey(i) == IndexKey(j)
      ensures i == j
    {
      DecimalInjective(i, j);
    }
    forall i | 0 <= i < n
      ensures IndexKey(i) != "QueueUrl"
    {
      IndexKeyNotQueueUrl(i);
    }
  }

  /** The entries `0 := items[0]`, `1 := items[1]`, … that spreading an array-like value copies. */
  function Indexed(items: seq<JsValue>): map<string, JsValue>
    decreases |items|
  {
    if items == [] then map[]
    else Indexed(items[..|items| - 1])[IndexKey(|items| - 1) := items[|items| - 1]]
  }

  /** Every key of `Indexed(items)` is an index of `items`. */
  lemma {:induction false} IndexedKeys(items: seq<JsValue>)
    ensures forall k :: k in Indexed(items) ==> exists i :: 0 <= i < |items| && k == IndexKey(i)
    decreases |items|
  {
    if items != [] {
      var n := |items| - 1;
      IndexedKeys(items[..n]);
      forall k | k in Indexed(items)
        ensures exists i :: 0 <= i < |items| && k == IndexKey(i)
      {
        if k != IndexKey(n) {
          assert k in Indexed(items[..n]);
          var i :| 0 <= i < n && k == IndexKey(i);
        }
      }
    }
  }

  /** Every index of `items` is a key of `Indexed(items)`, holding its item. */
  lemma {:induction false} IndexedValues(items: seq<JsValue>)
    ensures forall i :: 0 <= i < |items| ==> IndexKey(i) in Indexed(items) && Indexed(items)[IndexKey(i)] == items[i]
    decreases |items|
  {
    if items != [] {
      var n := |items| - 1;
      var prefix := items[..n];
      IndexedValues(prefix);
      IndexKeysDistinct(|items|);
      forall i | 0 <= i < n
        ensures IndexKey(i) in Indexed(items) && Indexed(items)[IndexKey(i)] == items[i]
      {
        assert IndexKey(i) != IndexKey(n);
        assert prefix[i] == items[i];
      }
    }
  }

  /** Exactly the index keys of `items` are present, each with its item, and `QueueUrl` is not among them. */
  lemma IndexedEntries(items: seq<JsValue>)
    ensures forall k :: k in Indexed(items) ==> exists i :: 0 <= i < |items| && k == IndexKey(i)
    ensures forall i :: 0 <= i < |items| ==> IndexKey(i) in Indexed(items) && Indexed(items)[IndexKey(i)] == items[i]
    ensures "QueueUrl" !in Indexed(items)
  {
    IndexedKeys(items);
    IndexedValues(items);
    IndexKeysDistinct(|items|);
  }

  /**
   * The UTF-16 code units of one character, each as a one-unit string: a
   * character of the Basic Multilingual Plane is one unit, any other is a
   * high and a low surrogate that decode back to it.
   */
  function CodeUnits(c: char): (u: seq<JsValue>)
    ensures c as int < 0x1_0000 ==> u == [Str([c])]
    ensures c as int >= 0x1_0000 ==>
      && |u| == 2 && u[0].LoneSurrogate? && u[1].LoneSurrogate?
      && 0xD800 <= u[0].unit < 0xDC00 && 0xDC00 <= u[1].unit < 0xE000
      && 0x1_0000 + (u[0].unit - 0xD800) * 0x400 + (u[1].unit - 0xDC00) == c as int
  {
    if c as int < 0x1_0000 then [Str([c])]
    else
      var v := c as int - 0x1_0000;
      [LoneSurrogate(0xD800 + v / 0x400), LoneSurrogate(0xDC00 + v % 0x400)]
  }

  /** A string as JavaScript indexes it: one entry per UTF-16 code unit. */
  function Utf16Units(s: string): (r: seq<JsValue>)
    ensures |s| <= |r| <= 2 * |s|
  {
    if s == [] then [] else CodeUnits(s[0]) + Utf16Units(s[1..])
  }

  /** A string within the Basic Multilingual Plane has one code unit per character. */
  lemma {:induction false} BmpUnitsAreChars(s: string)
    requires forall i :: 0 <= i < |s| ==> s[i] as int < 0x1_0000
    ensures Utf16Units(s) == seq(|s|, i requires 0 <= i < |s| => Str([s[i]]))
  {
    if s != [] {
      BmpUnitsAreChars(s[1..]);
      var r := Utf16Units(s);
      assert r == [Str([s[0]])] + Utf16Units(s[1..]);
      assert forall i :: 0 <= i < |s| ==> r[i] == Str([s[i]]);
    }
  }

  /**
   * The own enumerable properties object spread copies from a value: an
   * object's own keys, an array's indices, a string's indices with one
   * UTF-16 code unit each, and nothing from `undefined`, `null`, a boolean, a
   * number or a function.
   */
  function Spread(v: JsValue): (r: map<string, JsValue>)
    ensures v.Obj? ==> r == v.props
    ensures v.Arr? ==> r == Indexed(v.items)
    ensures v.Str? ==> r == Indexed(Utf16Units(v.s))
    ensures v.LoneSurrogate? ==> r == Indexed([v])
    ensures !(v.Obj? || v.Arr? || v.Str? || v.LoneSurrogate?) ==> r == map[]
    ensures !v.Obj? ==> "QueueUrl" !in r
  {
    match v
    case Obj(props) => props
    case Arr(items) =>
      IndexedEntries(items);
      Indexed(items)
    case Str(s) =>
      IndexedEntries(Utf16Units(s));
      Indexed(Utf16Units(s))
    case LoneSurrogate(_) =>
      IndexedEntries([v]);
      Indexed([v])
    case _ => map[]
  }

  /**
   * `{ QueueUrl: queueUrl, ...receiveMessageParameters }`: the queue URL,
   * then every property the spread copies on top of it, so the parameters
   * replace the defaults wholesale and an object may override `QueueUrl`
   * itself.
   */
  function ReceiveParams(queueUrl: string, parameters: JsValue): (r: map<string, JsValue>)
    ensures r.Keys == {"QueueUrl"} + Spread(parameters).Keys
    ensures forall k :: k in Spread(parameters) ==> r[k] == Spread(parameters)[k]
    ensures "QueueUrl" !in Spread(parameters) ==> r["QueueUrl"] == Str(queueUrl)
  {
    map["QueueUrl" := Str(queueUrl)] + Spread(parameters)
  }

  /** A character outside the Basic Multilingual Plane spreads into two keys, one per surrogate. */
  lemma EmojiSpreadsToSurrogates()
    ensures var p := Spread(Str("\U{1F600}"));
      && p.Keys == {"0", "1"}
      && p["0"] == LoneSurrogate(0xD83D) && p["1"] == LoneSurrogate(0xDE00)
  {
    var units := Utf16Units("\U{1F600}");
    assert units == [LoneSurrogate(0xD83D), LoneSurrogate(0xDE00)];
    var spread := Indexed(units);
    IndexedEntries(units);
    assert IndexKey(0) == "0" && IndexKey(1) == "1";
    forall k | k in spread
      ensures k == "0" || k == "1"
    {
      var i :| 0 <= i < 2 && k == IndexKey(i);
    }
    assert spread.Keys == {"0", "1"};
  }

  /** An array of parameters is spread into its index keys next to `QueueUrl`. */
  lemma ArrayParamsSpreadByIndex(queueUrl: string, x: JsValue, y: JsValue)
    ensures var p := ReceiveParams(queueUrl, Arr([x, y]));
      && p.Keys == {"QueueUrl", "0", "1"}
      && p["QueueUrl"] == Str(queueUrl) && p["0"] == x && p["1"] == y
  {
    var spread := Indexed([x, y]);
    IndexedEntries([x, y]);
    assert IndexKey(0) == "0" && IndexKey(1) == "1";
    forall k | k in spread
      ensures k == "0" || k == "1"
    {
      var i :| 0 <= i < 2 && k == IndexKey(i);
    }
    assert spread.Keys == {"0", "1"};
  }

  /**
   * `sqsiphonFactory`. It fails with the error of the first check that
   * fails, in the order `sqs`, `queueUrl`, `handler`, and succeeds exactly
   * when all three pass, with a stopped instance whose receive parameters
   * are built from the merged options.
   */
  function Create(options: map<string, JsValue>): (r: Result<Instance>)
    ensures var opts := MergeOptions(options);
      && (r.Success? <==> SqsValid(opts) && QueueUrlValid(opts) && HandlerValid(opts))
      && (!SqsValid(opts) ==> r == Failure(SqsMissing))
      && (SqsValid(opts) && !QueueUrlValid(opts) ==> r == Failure(QueueUrlMissing))
      && (SqsValid(opts) && QueueUrlValid(opts) && !HandlerValid(opts) ==> r == Failure(HandlerMissing))
    ensures r.Success? ==> r.value.engine == Lifecycle.Created
    ensures r.Success? ==> var opts := MergeOptions(options);
      && r.value.queueUrl == opts["queueUrl"].s
      && r.value.sqs == opts["sqs"]
      && r.value.handler == opts["handler"]
      && r.value.fifoSorter == opts["fifoSorter"]
    ensures r.Success? ==> r.value.receiveParams
                           == ReceiveParams(r.value.queueUrl, MergeOptions(options)["receiveMessageParameters"])
  {
    var opts := MergeOptions(options);
    if !Truthy(opts["sqs"]) then Failure(SqsMissing)
    else if !Truthy(opts["queueUrl"]) || !opts["queueUrl"].Str? then Failure(QueueUrlMissing)
    else if !Truthy(opts["handler"]) || !opts["handler"].Func? then Failure(HandlerMissing)
    else
      var queueUrl := opts["queueUrl"].s;
      Success(Instance(opts["sqs"], queueUrl, opts["handler"],
                       ReceiveParams(queueUrl, opts["receiveMessageParameters"]),
                       opts["fifoSorter"], Lifecycle.Created))
  }

  /**
   * Without `receiveMessageParameters` the receive call asks for up to 10
   * messages with a 30-second visibility timeout, all attributes, on the
   * configured queue.
   */
  lemma DefaultReceiveParamsUsed(options: map<string, JsValue>)
    requires "receiveMessageParameters" !in options
    requires Create(options).Success?
    ensures var p := Create(options).value.receiveParams;
      && p["QueueUrl"] == Str(Create(options).value.queueUrl)
      && p["MaxNumberOfMessages"] == Num(10)
      && p["VisibilityTimeout"] == Num(30)
      && p["AttributeNames"] == Arr([Str("All")])
      && p["MessageAttributeNames"] == Arr([Str("All")])
  {
    var opts := MergeOptions(options);
    assert opts["receiveMessageParameters"] == Obj(DefaultReceiveParameters);
    DefaultParamsSent(Create(options).value.queueUrl);
  }

  lemma DefaultParamsSent(queueUrl: string)
    ensures var p := ReceiveParams(queueUrl, Obj(DefaultReceiveParameters));
      && p["QueueUrl"] == Str(queueUrl)
      && p["MaxNumberOfMessages"] == Num(10)
      && p["VisibilityTimeout"] == Num(30)
      && p["AttributeNames"] == Arr([Str("All")])
      && p["MessageAttributeNames"] == Arr([Str("All")])
  {
    assert "QueueUrl" !in DefaultReceiveParameters;
  }

  /**
   * A caller's parameters object replaces the defaults shallowly: exactly
   * its keys and `QueueUrl` are sent, with its values, and a default it
   * leaves out is not sent.
   */
  lemma UserReceiveParamsReplaceDefaults(options: map<string, JsValue>, props: map<string, JsValue>)
    requires "receiveMessageParameters" in options && options["receiveMessageParameters"] == Obj(props)
    requires Create(options).Success?
    ensures var p := Create(options).value.receiveParams;
      && p.Keys == props.Keys + {"QueueUrl"}
      && (forall k :: k in props ==> p[k] == props[k])
      && ("MaxNumberOfMessages" !in props ==> "MaxNumberOfMessages" !in p)
  {
  }

  /**
   * `fifoPartitions[id].sort(fifoSorter)` with the configured `fifoSorter`:
   * a function sorts by its results (`cmp` stands for them), `undefined`
   * sorts by string form and so keeps the group's order, and any other
   * value makes `sort` throw before it reorders anything.
   */
  function SortBySorter(sorter: JsValue, cmp: Comparator, group: seq<Message>): (r: Result<seq<Message>>)
    ensures r.Success? <==> sorter.Func? || sorter.JsUndefined?
    ensures r.Success? ==> multiset(r.value) == multiset(group)
    ensures sorter.JsUndefined? ==> r == Success(group)
    ensures r.Failure? ==> r.error == SorterInvalid
  {
    match sorter
    case Func => Success(Sort(cmp, group))
    case JsUndefined =>
      UndefinedSortKeepsOrder(group);
      Success(Sort(DefaultOrder, group))
    case _ => Failure(SorterInvalid)
  }

  /**
   * An explicit `fifoSorter: undefined` survives the merge and sorts like
   * the default `() => {}`: every group keeps its arrival order.
   */
  lemma UndefinedSorterActsAsDefault(options: map<string, JsValue>, cmp: Comparator, group: seq<Message>)
    requires "fifoSorter" in options && options["fifoSorter"] == JsUndefined
    requires Create(options).Success?
    ensures SortBySorter(Create(options).value.fifoSorter, cmp, group) == Success(group)
    ensures SortBySorter(DefaultOptions["fifoSorter"], NoOpComparator, group) == Success(group)
  {
    NoOpSortKeepsOrder(group);
  }
}

=== FILE: fifo_sort.dfy ===
/**
 * Sorting a FIFO partition with the configured `fifoSorter` before it is
 * handed to a group runner. The sort is stable, as `Array.prototype.sort`
 * is: a comparator result that is not positive keeps the pair in arrival
 * order.
 */
module FifoSort {
  import opened Messages

  /** A comparator as sort reads it: a positive result puts the second argument first. */
  type Comparator = (Message, Message) -> int

  /**
   * The default `fifoSorter`, `() => {}`. It returns `undefined`; sort turns
   * that into NaN and treats NaN as 0, so every pair compares equal.
   */
  function NoOpComparator(a: Message, b: Message): int { 0 }

  /** Inserts `x` after every element of `s` that does not compare greater than it. */
  function Insert(cmp: Comparator, s: seq<Message>, x: Message): (r: seq<Message>)
    ensures multiset(r) == multiset(s) + multiset{x}
    ensures |r| == |s| + 1
    decreases |s|
  {
    if s == [] || cmp(s[|s| - 1], x) <= 0 then s + [x]
    else
      var init := s[..|s| - 1];
      assert s == init + [s[|s| - 1]];
      Insert(cmp, init, x) + [s[|s| - 1]]
  }

  /** `messages.sort(cmp)`: a stable insertion sort, which only permutes its input. */
  function Sort(cmp: Comparator, s: seq<Message>): (r: seq<Message>)
    ensures multiset(r) == multiset(s)
    ensures |r| == |s|
    decreases |s|
  {
    if s == [] then []
    else
      var init := s[..|s| - 1];
      assert s == init + [s[|s| - 1]];
      Insert(cmp, Sort(cmp, init), s[|s| - 1])
  }

  /** With the default sorter a group keeps its arrival order. */
  lemma NoOpSortKeepsOrder(s: seq<Message>)
    ensures Sort(NoOpComparator, s) == s
  {
    SortedKeepsOrder(NoOpComparator, s);
  }

  /**
   * Stability: a group that `cmp` already finds in order, no element put
   * before an earlier one, comes back unchanged.
   */
  lemma {:induction false} SortedKeepsOrder(cmp: Comparator, s: seq<Message>)
    requires Sorted(cmp, s)
    ensures Sort(cmp, s) == s
    decreases |s|
  {
    if s != [] {
      var init := s[..|s| - 1];
      var last := s[|s| - 1];
      assert Sorted(cmp, init);
      SortedKeepsOrder(cmp, init);
      assert Sort(cmp, s) == Insert(cmp, init, last);
      if init != [] {
        assert cmp(init[|init| - 1], last) <= 0;
      }
      assert s == init + [last];
    }
  }

  /**
   * Two strings compared character by character, a proper prefix first:
   * zero exactly for equal strings, and only ever -1, 0 or 1.
   */
  function CompareStrings(x: string, y: string): (c: int)
    ensures c == 0 <==> x == y
    ensures -1 <= c <= 1
    decreases |x|
  {
    if x == [] && y == [] then 0
    else if x == [] then -1
    else if y == [] then 1
    else if x[0] < y[0] then -1
    else if x[0] > y[0] then 1
    else
      var c := CompareStrings(x[1..], y[1..]);
      assert x == [x[0]] + x[1..] && y == [y[0]] + y[1..];
      c
  }

  /** Swapping the strings flips the sign. */
  lemma {:induction false} CompareStringsAntisymmetric(x: string, y: string)
    ensures CompareStrings(y, x) == -CompareStrings(x, y)
    decreases |x|
  {
    if x != [] && y != [] && x[0] == y[0] {
      CompareStringsAntisymmetric(x[1..], y[1..]);
    }
  }

  /** `String(m)` for a message record: every plain object gives the same form. */
  function StringForm(m: Message): string {
    "[object Object]"
  }

  /** The order `sort` uses when called with `undefined`: the string forms, compared. */
  function DefaultOrder(a: Message, b: Message): int {
    CompareStrings(StringForm(a), StringForm(b))
  }

  /** Sorting with `undefined` never reorders a group of message records. */
  lemma UndefinedSortKeepsOrder(s: seq<Message>)
    ensures Sort(DefaultOrder, s) == s
  {
    SortedKeepsOrder(DefaultOrder, s);
  }

  /**
   * `cmp` is a consistent comparator in the ECMAScript sense: it is sign
   * symmetric (`a` before `b` exactly when `b` after `a`), which makes it
   * total, and its "not after" relation is transitive.
   */
  ghost predicate Consistent(cmp: Comparator) {
    && (forall a, b :: cmp(a, b) < 0 <==> cmp(b, a) > 0)
    && (forall a, b, c :: cmp(a, b) <= 0 && cmp(b, c) <= 0 ==> cmp(a, c) <= 0)
  }

  /**
   * A comparator that answers only 0 or 1, such as a boolean
   * `(a, b) => a.x > b.x`, is not consistent once it answers 1.
   */
  lemma BooleanComparatorInconsistent(cmp: Comparator, a: Message, b: Message)
    requires forall x, y :: cmp(x, y) == 0 || cmp(x, y) == 1
    requires cmp(a, b) == 1
    ensures !Consistent(cmp)
  {
  }

  /** No element is followed by one that `cmp` puts before it. */
  ghost predicate Sorted(cmp: Comparator, s: seq<Message>) {
    forall i, j :: 0 <= i < j < |s| ==> cmp(s[i], s[j]) <= 0
  }

  lemma SortedSnoc(cmp: Comparator, r: seq<Message>, z: Message)
    requires Sorted(cmp, r)
    requires forall y :: y in r ==> cmp(y, z) <= 0
    ensures Sorted(cmp, r + [z])
  {
    var t := r + [z];
    forall i, j | 0 <= i < j < |t|
      ensures cmp(t[i], t[j]) <= 0
    {
      if j < |r| {
        assert t[i] == r[i] && t[j] == r[j];
      } else {
        assert t[i] == r[i] && r[i] in r;
      }
    }
  }

  lemma {:induction false} InsertSorted(cmp: Comparator, s: seq<Message>, x: Message)
    requires Consistent(cmp)
    requires Sorted(cmp, s)
    ensures Sorted(cmp, Insert(cmp, s, x))
    decreases |s|
  {
    if s == [] {
    } else if cmp(s[|s| - 1], x) <= 0 {
      var last := s[|s| - 1];
      forall y | y in s
        ensures cmp(y, x) <= 0
      {
        var i :| 0 <= i < |s| && s[i] == y;
        if i < |s| - 1 {
          assert cmp(y, last) <= 0;
        }
      }
      SortedSnoc(cmp, s, x);
    } else {
      var init := s[..|s| - 1];
      var last := s[|s| - 1];
      assert cmp(x, last) <= 0;
      assert Sorted(cmp, init);
      InsertSorted(cmp, init, x);
      var r := Insert(cmp, init, x);
      forall y | y in r
        ensures cmp(y, last) <= 0
      {
        assert y in multiset(r);
        if y != x {
          assert y in multiset(init);
          var i :| 0 <= i < |init| && init[i] == y;
          assert s[i] == y;
        }
      }
      SortedSnoc(cmp, r, last);
      assert Insert(cmp, s, x) == r + [last];
    }
  }

  /** With a consistent comparator the sorted partition is in comparator order. */
  lemma {:induction false} SortSorts(cmp: Comparator, s: seq<Message>)
    requires Consistent(cmp)
    ensures Sorted(cmp, Sort(cmp, s))
    decreases |s|
  {
    if s != [] {
      var init := s[..|s| - 1];
      SortSorts(cmp, init);
      InsertSorted(cmp, Sort(cmp, init), s[|s| - 1]);
    }
  }
}

=== FILE: group_runner.dfy ===
/**
 * The sequential group runner (`groupHandler`): feeds one FIFO partition to
 * handleMessage one message at a time, awaiting each call before the next,
 * and abandons the partition at the first message whose processing failed.
 */
module GroupRunner {
  import opened Messages
  import opened Trace

  /**
   * Whether a handleMessage settlement ends the loop: a result strictly
   * equal to `false` (the abort case), or a rejection, which leaves the loop
   * by the exception.
   */
  predicate Stops(c: Completion) {
    c.Rejected? || c == Resolved(False)
  }

  /** The position of the first message whose processing ends the loop, or the group's length if none does. */
  function FirstStop(process: Message -> Step, messages: seq<Message>): (k: nat)
    ensures k <= |messages|
    ensures forall j :: 0 <= j < k ==> !Stops(process(messages[j]).completion)
    ensures k < |messages| ==> Stops(process(messages[k]).completion)
    decreases |messages|
  {
    if messages == [] then 0
    else if Stops(process(messages[0]).completion) then 0
    else
      var k := FirstStop(process, messages[1..]);
      assert forall j :: 1 <= j < |messages| ==> messages[j] == messages[1..][j - 1];
      1 + k
  }

  /** How many messages the runner hands to handleMessage: up to and including the first that stops it. */
  function Processed(process: Message -> Step, messages: seq<Message>): nat {
    var k := FirstStop(process, messages);
    if k < |messages| then k + 1 else k
  }

  /**
   * The runner's behaviour, stated declaratively: handleMessage is called on
   * the first `Processed` messages in order; a `false` result adds one
   * `fifo-processing-aborted` notification carrying the failing message and
   * the whole group; a rejection is passed on; otherwise the runner resolves
   * with `undefined`.
   */
  function GroupRun(process: Message -> Step, messages: seq<Message>): Step {
    var n := Processed(process, messages);
    var calls := Calls(messages[..n], process, HandleMessageCall);
    if n == 0 || !Stops(process(messages[n - 1]).completion) then Step(Resolved(Undefined), calls)
    else match process(messages[n - 1]).completion
      case Rejected(e) => Step(Rejected(e), calls)
      case Resolved(_) =>
        Step(Resolved(Undefined), calls + [Emit(FifoProcessingAborted(messages[n - 1], messages))])
  }

  /**
   * `groupHandler`'s `for ... of` loop with its `break`. It calls
   * handleMessage on exactly the messages up to the first one that stops
   * the group, and its trace and settlement are those of `GroupRun`.
   */
  method GroupHandler(process: Message -> Step, messages: seq<Message>) returns (r: Step, processed: nat)
    ensures processed == Processed(process, messages)
    ensures r == GroupRun(process, messages)
  {
    var trace: seq<Action> := [];
    var completion := Resolved(Undefined);
    var i := 0;
    var stopped := false;
    while i < |messages| && !stopped
      invariant 0 <= i <= |messages|
      invariant !stopped ==> i <= FirstStop(process, messages)
      invariant stopped ==> 0 < i && i == FirstStop(process, messages) + 1
      invariant !stopped ==> trace == Calls(messages[..i], process, HandleMessageCall) && completion == Resolved(Undefined)
      invariant stopped ==> GroupRun(process, messages) == Step(completion, trace)
      decreases |messages| - i, !stopped
    {
      var message := messages[i];
      var step := process(message);
      CallsAppend(messages[..i], [message], process, HandleMessageCall);
      assert messages[..i + 1] == messages[..i] + [message];
      assert Calls([message], process, HandleMessageCall) == [CallHandleMessage(message)] + step.trace;
      trace := trace + [CallHandleMessage(message)] + step.trace;
      if step.completion.Rejected? {
        RejectionPropagates(process, messages, i);
        completion := step.completion;
        stopped := true;
      } else if step.completion == Resolved(False) {
        AbortsAtFirstFalse(process, messages, i);
        trace := trace + [Emit(FifoProcessingAborted(message, messages))];
        stopped := true;
      }
      i := i + 1;
    }
    processed := i;
    r := Step(completion, trace);
    if !stopped {
      assert messages[..i] == messages;
    }
  }

  /**
   * When message `i` is the first to resolve `false`, the runner processes
   * messages 0..i in order, never touches the rest, and emits one abort
   * notification carrying message `i` and the whole group.
   */
  lemma AbortsAtFirstFalse(process: Message -> Step, messages: seq<Message>, i: nat)
    requires i < |messages|
    requires process(messages[i]).completion == Resolved(False)
    requires forall j :: 0 <= j < i ==> !Stops(process(messages[j]).completion)
    ensures Processed(process, messages) == i + 1
    ensures GroupRun(process, messages)
         == Step(Resolved(Undefined), Calls(messages[..i + 1], process, HandleMessageCall)
                                      + [Emit(FifoProcessingAborted(messages[i], messages))])
  {
  }

  /**
   * When message `i` is the first to stop the group by rejecting, the
   * runner rejects with that error after processing messages 0..i, and
   * emits no abort notification.
   */
  lemma RejectionPropagates(process: Message -> Step, messages: seq<Message>, i: nat)
    requires i < |messages|
    requires process(messages[i]).completion.Rejected?
    requires forall j :: 0 <= j < i ==> !Stops(process(messages[j]).completion)
    ensures Processed(process, messages) == i + 1
    ensures GroupRun(process, messages)
         == Step(process(messages[i]).completion, Calls(messages[..i + 1], process, HandleMessageCall))
  {
  }

  /**
   * When every call resolves with something other than `false`, every
   * message is processed once, in order, and nothing is emitted by the
   * runner itself.
   */
  lemma NoAbortWhenNoneFails(process: Message -> Step, messages: seq<Message>)
    requires forall j :: 0 <= j < |messages| ==>
      process(messages[j]).completion.Resolved? && process(messages[j]).completion.value != False
    ensures Processed(process, messages) == |messages|
    ensures GroupRun(process, messages) == Step(Resolved(Undefined), Calls(messages, process, HandleMessageCall))
  {
    assert messages[..|messages|] == messages;
  }

  /** When no message stops the group, every message is processed once, in order, and the runner resolves `undefined`. */
  lemma RunsAllWhenNoneStops(process: Message -> Step, messages: seq<Message>)
    requires FirstStop(process, messages) == |messages|
    ensures Processed(process, messages) == |messages|
    ensures GroupRun(process, messages) == Step(Resolved(Undefined), Calls(messages, process, HandleMessageCall))
  {
    assert messages[..|messages|] == messages;
  }

  /**
   * When no call rejects, the runner resolves `undefined` after the calls
   * up to the first stop, followed by the abort notification if a message
   * stopped the group.
   */
  lemma RunWithoutRejection(process: Message -> Step, messages: seq<Message>)
    requires forall i :: 0 <= i < |messages| ==> process(messages[i]).completion.Resolved?
    ensures var k := FirstStop(process, messages);
      GroupRun(process, messages)
      == Step(Resolved(Undefined),
              Calls(messages[..Processed(process, messages)], process, HandleMessageCall)
              + (if k < |messages| then [Emit(FifoProcessingAborted(messages[k], messages))] else []))
  {
    var k := FirstStop(process, messages);
    if k < |messages| {
      AbortsAtFirstFalse(process, messages, k);
    } else {
      RunsAllWhenNoneStops(process, messages);
      assert messages[..|messages|] == messages;
    }
  }
}

=== FILE: lifecycle.dfy ===
/**
 * The lifecycle of a consumer instance: the running flag, toggled by
 * `start` and `stop`, and the self-rescheduling poll and keep-alive loops
 * that read it. A loop is live from the moment an iteration is scheduled
 * until an iteration returns without scheduling the next; the model counts
 * live loops and leaves the event loop itself out.
 */
module Lifecycle {
  import opened Trace

  /** The running flag and the number of live poll and keep-alive loops. */
  datatype Engine = Engine(running: bool, pollLoops: nat, keepAliveLoops: nat)

  /** A new instance: not running, no loop scheduled. */
  const Created: Engine := Engine(false, 0, 0)

  /**
   * `start` as written: while running it does nothing; otherwise it sets
   * the flag, runs the first keep-alive iteration (which schedules the
   * next) and schedules the first poll iteration. Loops still pending from
   * an earlier run are neither cancelled nor reused.
   */
  function StartAsWritten(e: Engine): (r: Engine)
    ensures r.running
    ensures e.running ==> r == e
    ensures !e.running ==> r.pollLoops == e.pollLoops + 1 && r.keepAliveLoops == e.keepAliveLoops + 1
  {
    if e.running then e else Engine(true, e.pollLoops + 1, e.keepAliveLoops + 1)
  }

  /**
   * `start` as intended: the same transition, except that a loop still
   * pending from an earlier run is reused instead of joined by a second
   * one, so that at most one poll loop and one keep-alive loop are live.
   */
  function Start(e: Engine): (r: Engine)
    ensures r.running
    ensures e.running ==> r == e
    ensures !e.running ==> r.pollLoops == (if e.pollLoops == 0 then 1 else e.pollLoops)
    ensures !e.running ==> r.keepAliveLoops == (if e.keepAliveLoops == 0 then 1 else e.keepAliveLoops)
  {
    if e.running then e
    else Engine(true, if e.pollLoops == 0 then 1 else e.pollLoops, if e.keepAliveLoops == 0 then 1 else e.keepAliveLoops)
  }

  /** `stop`: clears the flag whatever its value; scheduled iterations stay scheduled. */
  function Stop(e: Engine): (r: Engine)
    ensures !r.running
    ensures r.pollLoops == e.pollLoops && r.keepAliveLoops == e.keepAliveLoops
  {
    e.(running := false)
  }

  /** The state after one poll iteration, and whether it polled. */
  datatype PollTick = PollTick(engine: Engine, polled: bool)

  /**
   * One scheduled `doPoll` iteration, given how its poll cycle would
   * settle. It reads the flag first: when stopped it returns without
   * polling and its loop ends. When running it polls and, once the cycle
   * resolves, schedules the next iteration; a rejected cycle leaves the
   * iteration before it reschedules, which also ends the loop.
   */
  function DoPoll(e: Engine, cycle: Completion): (r: PollTick)
    requires e.pollLoops > 0
    ensures r.polled <==> e.running
    ensures r.engine.running == e.running && r.engine.keepAliveLoops == e.keepAliveLoops
    ensures r.engine.pollLoops == (if e.running && cycle.Resolved? then e.pollLoops else e.pollLoops - 1)
  {
    if !e.running then PollTick(e.(pollLoops := e.pollLoops - 1), false)
    else if cycle.Rejected? then PollTick(e.(pollLoops := e.pollLoops - 1), true)
    else PollTick(e, true)
  }

  /** One scheduled keep-alive iteration: it reschedules itself only while running. */
  function KeepAlive(e: Engine): (r: Engine)
    requires e.keepAliveLoops > 0
    ensures r.running == e.running && r.pollLoops == e.pollLoops
    ensures r.keepAliveLoops == (if e.running then e.keepAliveLoops else e.keepAliveLoops - 1)
  {
    if e.running then e else e.(keepAliveLoops := e.keepAliveLoops - 1)
  }

  /** What can happen to an instance: a user call, or a scheduled iteration running. */
  datatype Op = StartOp | StopOp | PollOp(cycle: Completion) | KeepAliveOp

  /** One operation; an iteration with none scheduled cannot run and changes nothing. */
  function ApplyWith(e: Engine, op: Op, corrected: bool): Engine {
    match op
    case StartOp => if corrected then Start(e) else StartAsWritten(e)
    case StopOp => Stop(e)
    case PollOp(cycle) => if e.pollLoops > 0 then DoPoll(e, cycle).engine else e
    case KeepAliveOp => if e.keepAliveLoops > 0 then KeepAlive(e) else e
  }

  function RunWith(e: Engine, ops: seq<Op>, corrected: bool): Engine
    decreases |ops|
  {
    if ops == [] then e else RunWith(ApplyWith(e, ops[0], corrected), ops[1..], corrected)
  }

  /** Starting twice is starting once, as written and as intended. */
  lemma StartIdempotent(e: Engine)
    ensures StartAsWritten(StartAsWritten(e)) == StartAsWritten(e)
    ensures Start(Start(e)) == Start(e)
  {
  }

  /** Stopping twice is stopping once, and leaves the instance stopped. */
  lemma StopIdempotent(e: Engine)
    ensures Stop(Stop(e)) == Stop(e)
    ensures !Stop(Stop(e)).running
  {
  }

  /**
   * As written, stopping and starting again before the pending poll
   * iteration has re-read the flag leaves two poll loops live, and both
   * keep polling.
   */
  lemma RestartDoublesPollLoops()
    ensures var e := RunWith(Created, [StartOp, StopOp, StartOp], false);
      && e == Engine(true, 2, 2)
      && DoPoll(e, Resolved(Undefined)).polled
      && DoPoll(DoPoll(e, Resolved(Undefined)).engine, Resolved(Undefined)).polled
  {
    assert RunWith(Created, [StartOp, StopOp, StartOp], false)
        == RunWith(Engine(true, 1, 1), [StopOp, StartOp], false)
        == RunWith(Engine(false, 1, 1), [StartOp], false)
        == RunWith(Engine(true, 2, 2), [], false);
  }

  /** At most one loop of each kind is live, and a running instance has its keep-alive loop. */
  ghost predicate Single(e: Engine) {
    e.pollLoops <= 1 && e.keepAliveLoops <= 1 && (e.running ==> e.keepAliveLoops == 1)
  }

  /**
   * With the intended `start`, whatever sequence of calls and iterations
   * happens, a fresh instance never has more than one poll loop or one
   * keep-alive loop live.
   */
  lemma {:induction false} AtMostOneLoop(e: Engine, ops: seq<Op>)
    requires Single(e)
    ensures Single(RunWith(e, ops, true))
    decreases |ops|
  {
    if ops != [] {
      AtMostOneLoop(ApplyWith(e, ops[0], true), ops[1..]);
    }
  }

  /**
   * As written, a running instance always has a live keep-alive loop,
   * whatever sequence of calls and iterations brought it there.
   */
  lemma {:induction false} RunningKeepsAlive(e: Engine, ops: seq<Op>)
    requires e.running ==> e.keepAliveLoops >= 1
    ensures var r := RunWith(e, ops, false); r.running ==> r.keepAliveLoops >= 1
    decreases |ops|
  {
    if ops != [] {
      RunningKeepsAlive(ApplyWith(e, ops[0], false), ops[1..]);
    }
  }

  /** When no loop is pending, the intended `start` is the `start` as written. */
  lemma StartAgreesWhenIdle(e: Engine)
    requires e.pollLoops == 0 && e.keepAliveLoops == 0
    ensures Start(e) == StartAsWritten(e)
  {
  }
}

=== FILE: message_processor.dfy ===
/**
 * The message processor (`handleMessage`): run the user handler on one
 * message, delete the message from the queue if the handler succeeded, and
 * reduce both outcomes to a boolean plus one notification.
 */
module MessageProcessor {
  import opened Messages
  import opened Trace

  /** How an awaited collaborator call settled: fulfilled, or rejected with an error. */
  datatype Outcome = Ok | Failed(error: Error)

  /**
   * What the processor reads from the app: the configured queue URL, and the
   * user handler and `sqs.deleteMessage` given by the outcome they produce.
   */
  datatype App = App(queueUrl: string, handler: Message -> Outcome, deleteMessage: DeleteRequest -> Outcome)

  /** The delete call for a message: the configured queue URL and the message's receipt handle. */
  function DeleteRequestFor(app: App, m: Message): DeleteRequest {
    DeleteRequest(app.queueUrl, m.receiptHandle)
  }

  /** Both steps succeeded. */
  predicate Succeeds(app: App, m: Message) {
    app.handler(m).Ok? && app.deleteMessage(DeleteRequestFor(app, m)).Ok?
  }

  /**
   * `handleMessage`. It never rejects; it resolves `true` exactly when the
   * handler and the delete both succeeded. The handler is invoked once with
   * the message itself; the delete is issued once, after it, and only if the
   * handler succeeded; exactly one notification follows: `handled-message`
   * on success, otherwise `processing-error` with the error of the step that
   * failed.
   */
  function HandleMessage(app: App, m: Message): (r: Step)
    ensures r.completion == Resolved(if Succeeds(app, m) then True else False)
    ensures |r.trace| > 0 && r.trace[0] == CallHandler(m)
    ensures HandlerCalls(r.trace) == [m]
    ensures Deletes(r.trace) == (if app.handler(m).Ok? then [DeleteRequestFor(app, m)] else [])
    ensures Emitted(r.trace) == [if Succeeds(app, m) then HandledMessage(m) else ProcessingError(FailureCause(app, m), m)]
    ensures r.trace[|r.trace| - 1] == Emit(Emitted(r.trace)[0])
    ensures ProcessCalls(r.trace) == []
  {
    var handled := app.handler(m);
    if handled.Failed? then
      var trace := [CallHandler(m), Emit(ProcessingError(handled.error, m))];
      CollectTwo(trace[0], trace[1], EventOf);
      CollectTwo(trace[0], trace[1], HandlerCallOf);
      CollectTwo(trace[0], trace[1], DeleteOf);
      CollectTwo(trace[0], trace[1], ProcessCallOf);
      Step(Resolved(False), trace)
    else
      var request := DeleteRequestFor(app, m);
      var deleted := app.deleteMessage(request);
      var event := if deleted.Failed? then ProcessingError(deleted.error, m) else HandledMessage(m);
      var trace := [CallHandler(m), CallDelete(request), Emit(event)];
      CollectThree(trace[0], trace[1], trace[2], EventOf);
      CollectThree(trace[0], trace[1], trace[2], HandlerCallOf);
      CollectThree(trace[0], trace[1], trace[2], DeleteOf);
      CollectThree(trace[0], trace[1], trace[2], ProcessCallOf);
      Step(Resolved(if deleted.Failed? then False else True), trace)
  }

  /** The error a failed processing reports: the handler's if it failed, otherwise the delete's. */
  function FailureCause(app: App, m: Message): Error
    requires !Succeeds(app, m)
  {
    if app.handler(m).Failed? then app.handler(m).error
    else app.deleteMessage(DeleteRequestFor(app, m)).error
  }

  /** The processor as a call the group runner and the dispatcher can make. */
  function Processor(app: App): Message -> Step {
    m => HandleMessage(app, m)
  }
}

=== FILE: messages.dfy ===
/**
 * Messages as the consumer sees them: an SQS message reduced to the fields
 * the dispatch logic reads, plus the small wrapper types shared by every
 * other module.
 */
module Messages {

  datatype Option<+T> = None | Some(value: T)

  /** An `Error` object; only its message text is modelled. */
  datatype Error = Error(message: string)

  /** A value or the error that was thrown instead of it. */
  datatype Result<+T> = Success(value: T) | Failure(error: Error)

  /** The `Attributes` record of an SQS message; only `MessageGroupId` is read. */
  datatype Attributes = Attributes(messageGroupId: Option<string>)

  /**
   * An SQS message. `attributes` is absent when the receive call returned
   * none; `body` stands for everything else the user handler may read and
   * the consumer never inspects.
   */
  datatype Message = Message(receiptHandle: string, attributes: Option<Attributes>, body: string)

  /** The reserved key of the partition that holds ungrouped messages. */
  const DefaultKey: string := "default"

  /**
   * `!message.Attributes || !message.Attributes.MessageGroupId`: no
   * attributes, no group id, or the empty (falsy) group id.
   */
  predicate Ungrouped(m: Message) {
    || m.attributes.None?
    || m.attributes.value.messageGroupId.None?
    || m.attributes.value.messageGroupId.value == ""
  }

  function GroupId(m: Message): string
    requires !Ungrouped(m)
  {
    m.attributes.value.messageGroupId.value
  }

  /** The partition a message belongs in: its group id, or the default key. */
  function Key(m: Message): string {
    if Ungrouped(m) then DefaultKey else GroupId(m)
  }
}

=== FILE: partition.dfy ===
/**
 * The partitioner: one scan of a batch that puts every ungrouped message in
 * the "default" partition and every grouped message in the partition named
 * by its `MessageGroupId`, created on first sight.
 */
module Partition {
  import opened Messages

  /** One FIFO partition: a group id and its messages in arrival order. */
  datatype Group = Group(id: string, messages: seq<Message>)

  /**
   * The partition object: the `default` array plus the group arrays, listed
   * in the order their keys were first seen.
   */
  datatype Partitions = Partitions(default: seq<Message>, groups: seq<Group>)

  /** The messages of `batch` whose key is `k`, in arrival order: the reference every partition is checked against. */
  function Select(batch: seq<Message>, k: string): seq<Message>
  {
    if batch == [] then []
    else Select(batch[..|batch| - 1], k) + (if Key(batch[|batch| - 1]) == k then [batch[|batch| - 1]] else [])
  }

  /** All partitions' messages, the default partition first. */
  function Flatten(p: Partitions): seq<Message> {
    p.default + FlattenGroups(p.groups)
  }

  function FlattenGroups(groups: seq<Group>): seq<Message> {
    if groups == [] then [] else groups[0].messages + FlattenGroups(groups[1..])
  }

  /** The position of the group named `id`, if there is one (`partitions[groupId]`). */
  function Find(groups: seq<Group>, id: string): (r: Option<nat>)
    ensures r.Some? ==> r.value < |groups| && groups[r.value].id == id
    ensures r.None? ==> forall i :: 0 <= i < |groups| ==> groups[i].id != id
  {
    if groups == [] then None
    else if groups[0].id == id then Some(0)
    else match Find(groups[1..], id)
      case None => None
      case Some(i) => Some(i + 1)
  }

  /**
   * One iteration of the partitioning loop. A message whose group id is
   * literally "default" finds the default array already under that key and
   * is pushed onto it.
   */
  function Place(p: Partitions, m: Message): Partitions {
    if Ungrouped(m) then p.(default := p.default + [m])
    else
      var groupId := GroupId(m);
      if groupId == DefaultKey then p.(default := p.default + [m])
      else match Find(p.groups, groupId)
        case Some(i) => p.(groups := p.groups[i := Group(groupId, p.groups[i].messages + [m])])
        case None => p.(groups := p.groups + [Group(groupId, [m])])
  }

  /** `p` is exactly the partitioning of `batch`. */
  ghost predicate Partitioned(batch: seq<Message>, p: Partitions) {
    && p.default == Select(batch, DefaultKey)
    && GroupsExact(batch, p.groups)
    && IdsDistinct(p.groups)
    && IdsCover(batch, p.groups)
    && GroupsNonEmpty(p.groups)
  }

  /** Every group partition holds at least one message: a partition is created only for a message that goes into it. */
  ghost predicate GroupsNonEmpty(groups: seq<Group>) {
    forall i :: 0 <= i < |groups| ==> groups[i].messages != []
  }

  /** Every group partition holds exactly the batch's messages with its id. */
  ghost predicate GroupsExact(batch: seq<Message>, groups: seq<Group>) {
    forall i :: 0 <= i < |groups| ==> groups[i].id != DefaultKey && groups[i].messages == Select(batch, groups[i].id)
  }

  /** No group id has two partitions. */
  ghost predicate IdsDistinct(groups: seq<Group>) {
    forall i, j :: 0 <= i < j < |groups| ==> groups[i].id != groups[j].id
  }

  /** Every group id occurring in the batch has a partition. */
  ghost predicate IdsCover(batch: seq<Message>, groups: seq<Group>) {
    forall m :: m in batch && Key(m) != DefaultKey ==> exists i :: 0 <= i < |groups| && groups[i].id == Key(m)
  }

  lemma SelectSnoc(batch: seq<Message>, m: Message, k: string)
    ensures Select(batch + [m], k) == Select(batch, k) + (if Key(m) == k then [m] else [])
  {
    assert (batch + [m])[..|batch + [m]| - 1] == batch;
  }

  lemma {:induction false} SelectMembers(batch: seq<Message>, k: string, x: Message)
    ensures x in Select(batch, k) <==> x in batch && Key(x) == k
    decreases |batch|
  {
    if batch != [] {
      var prefix := batch[..|batch| - 1];
      SelectMembers(prefix, k, x);
      assert batch == prefix + [batch[|batch| - 1]];
    }
  }

  /** No message of the batch has key `k`, so its partition would be empty. */
  lemma SelectAbsent(batch: seq<Message>, k: string)
    requires forall m :: m in batch ==> Key(m) != k
    ensures Select(batch, k) == []
  {
    if Select(batch, k) != [] {
      SelectMembers(batch, k, Select(batch, k)[0]);
    }
  }

  /** One loop iteration keeps the partition object exact. */
  lemma PlaceKeepsPartitioned(batch: seq<Message>, p: Partitions, m: Message, b: seq<Message>)
    requires b == batch + [m]
    requires Partitioned(batch, p)
    ensures Partitioned(b, Place(p, m))
  {
    SelectSnoc(batch, m, DefaultKey);
    if Key(m) == DefaultKey {
      PlaceDefault(batch, p.groups, m, b);
    } else {
      var g := Key(m);
      assert !Ungrouped(m) && GroupId(m) == g;
      match Find(p.groups, g)
      case Some(i) =>
        PlaceExisting(batch, p.groups, m, b, i);
      case None =>
        SelectAbsent(batch, g);
        PlaceNew(batch, p.groups, m, b);
    }
  }

  lemma PlaceDefault(batch: seq<Message>, groups: seq<Group>, m: Message, b: seq<Message>)
    requires b == batch + [m] && Key(m) == DefaultKey
    requires GroupsExact(batch, groups) && IdsCover(batch, groups)
    ensures GroupsExact(b, groups) && IdsCover(b, groups)
  {
    forall i | 0 <= i < |groups|
      ensures groups[i].messages == Select(b, groups[i].id)
    {
      SelectSnoc(batch, m, groups[i].id);
    }
  }

  lemma PlaceExisting(batch: seq<Message>, groups: seq<Group>, m: Message, b: seq<Message>, i: nat)
    requires b == batch + [m] && Key(m) != DefaultKey
    requires i < |groups| && groups[i].id == Key(m)
    requires GroupsExact(batch, groups) && IdsDistinct(groups) && IdsCover(batch, groups)
    ensures var gs := groups[i := Group(Key(m), groups[i].messages + [m])];
      GroupsExact(b, gs) && IdsDistinct(gs) && IdsCover(b, gs)
  {
    var gs := groups[i := Group(Key(m), groups[i].messages + [m])];
    forall j | 0 <= j < |gs|
      ensures gs[j].messages == Select(b, gs[j].id)
    {
      SelectSnoc(batch, m, gs[j].id);
    }
    assert forall j :: 0 <= j < |gs| ==> gs[j].id == groups[j].id;
  }

  lemma PlaceNew(batch: seq<Message>, groups: seq<Group>, m: Message, b: seq<Message>)
    requires b == batch + [m] && Key(m) != DefaultKey
    requires forall i :: 0 <= i < |groups| ==> groups[i].id != Key(m)
    requires Select(batch, Key(m)) == []
    requires GroupsExact(batch, groups) && IdsDistinct(groups) && IdsCover(batch, groups)
    ensures var gs := groups + [Group(Key(m), [m])];
      GroupsExact(b, gs) && IdsDistinct(gs) && IdsCover(b, gs)
  {
    var gs := groups + [Group(Key(m), [m])];
    forall j | 0 <= j < |gs|
      ensures gs[j].messages == Select(b, gs[j].id)
    {
      SelectSnoc(batch, m, gs[j].id);
    }
    forall x | x in b && Key(x) != DefaultKey
      ensures exists j :: 0 <= j < |gs| && gs[j].id == Key(x)
    {
      if x == m {
        assert gs[|groups|].id == Key(x);
      } else {
        assert x in batch;
        var j :| 0 <= j < |groups| && groups[j].id == Key(x);
        assert gs[j].id == Key(x);
      }
    }
  }

  /** The partitioning loop: `Place` applied to every message of the batch in arrival order, starting from an empty default array. */
  function Scan(batch: seq<Message>): Partitions
    decreases |batch|
  {
    if batch == [] then Partitions([], [])
    else Place(Scan(batch[..|batch| - 1]), batch[|batch| - 1])
  }

  /** The loop keeps the partition object exact, one message at a time. */
  lemma {:induction false} ScanPartitioned(batch: seq<Message>)
    ensures Partitioned(batch, Scan(batch))
    decreases |batch|
  {
    if batch != [] {
      var prefix := batch[..|batch| - 1];
      ScanPartitioned(prefix);
      PlaceKeepsPartitioned(prefix, Scan(prefix), batch[|batch| - 1], batch);
    }
  }

  /**
   * `partitionMessages`: the `default` partition holds exactly the ungrouped
   * messages (and those whose group id is "default"), each group partition
   * holds exactly the messages with its id, both in arrival order, and every
   * group id that occurs in the batch has exactly one partition.
   */
  function PartitionMessages(batch: seq<Message>): (r: Partitions)
    ensures Partitioned(batch, r)
  {
    ScanPartitioned(batch);
    Scan(batch)
  }

  lemma {:induction false} FlattenGroupsAppend(groups: seq<Group>, g: Group)
    ensures FlattenGroups(groups + [g]) == FlattenGroups(groups) + g.messages
    decreases |groups|
  {
    if groups != [] {
      assert (groups + [g])[1..] == groups[1..] + [g];
      FlattenGroupsAppend(groups[1..], g);
    }
  }

  lemma {:induction false} FlattenGroupsExtend(groups: seq<Group>, i: nat, m: Message)
    requires i < |groups|
    ensures multiset(FlattenGroups(groups[i := Group(groups[i].id, groups[i].messages + [m])]))
         == multiset(FlattenGroups(groups)) + multiset{m}
    decreases |groups|
  {
    var gs := groups[i := Group(groups[i].id, groups[i].messages + [m])];
    if i > 0 {
      assert gs[1..] == groups[1..][i - 1 := Group(groups[i].id, groups[i].messages + [m])];
      FlattenGroupsExtend(groups[1..], i - 1, m);
    } else {
      assert gs[1..] == groups[1..];
    }
  }

  /** One loop iteration adds exactly the message it looks at. */
  lemma PlaceAddsOne(p: Partitions, m: Message)
    ensures multiset(Flatten(Place(p, m))) == multiset(Flatten(p)) + multiset{m}
  {
    if !Ungrouped(m) && GroupId(m) != DefaultKey {
      match Find(p.groups, GroupId(m))
      case Some(i) =>
        FlattenGroupsExtend(p.groups, i, m);
      case None =>
        FlattenGroupsAppend(p.groups, Group(GroupId(m), [m]));
    }
  }

  /**
   * Nothing is lost and nothing is duplicated: the partitions together hold
   * the batch's messages exactly as often as the batch does, so their
   * lengths add up to the batch length.
   */
  lemma PartitionConserves(batch: seq<Message>)
    ensures multiset(Flatten(PartitionMessages(batch))) == multiset(batch)
    ensures |Flatten(PartitionMessages(batch))| == |batch|
  {
    ScanConserves(batch);
    var flat := Flatten(Scan(batch));
    assert |multiset(flat)| == |flat|;
  }

  lemma {:induction false} ScanConserves(batch: seq<Message>)
    ensures multiset(Flatten(Scan(batch))) == multiset(batch)
    decreases |batch|
  {
    if batch != [] {
      var prefix := batch[..|batch| - 1];
      var last := batch[|batch| - 1];
      ScanConserves(prefix);
      PlaceAddsOne(Scan(prefix), last);
      assert batch == prefix + [last];
    }
  }

  /**
   * Every message of the batch is in exactly one partition: the default one
   * when it is ungrouped or its group id is "default", otherwise the one
   * partition named by its group id.
   */
  lemma ExactlyOnePartition(batch: seq<Message>, m: Message)
    requires m in batch
    ensures var p := PartitionMessages(batch);
      && (m in p.default <==> Key(m) == DefaultKey)
      && (forall i :: 0 <= i < |p.groups| ==> (m in p.groups[i].messages <==> p.groups[i].id == Key(m)))
      && (Key(m) != DefaultKey ==> exists i :: 0 <= i < |p.groups| && p.groups[i].id == Key(m)
                                     && forall j :: 0 <= j < |p.groups| && j != i ==> m !in p.groups[j].messages)
  {
    var p := PartitionMessages(batch);
    SelectMembers(batch, DefaultKey, m);
    forall i | 0 <= i < |p.groups|
      ensures m in p.groups[i].messages <==> p.groups[i].id == Key(m)
    {
      SelectMembers(batch, p.groups[i].id, m);
    }
  }

  const ExampleOne1 := Message("r1", Some(Attributes(Some("one"))), "foo")
  const ExamplePlain := Message("r2", None, "non-fifo")
  const ExampleOne2 := Message("r3", Some(Attributes(Some("one"))), "bar")
  const ExampleTwo := Message("r4", Some(Attributes(Some("two"))), "foo")

  lemma PlaceExampleSteps()
    ensures Place(Partitions([], []), ExampleOne1) == Partitions([], [Group("one", [ExampleOne1])])
    ensures Place(Partitions([], [Group("one", [ExampleOne1])]), ExamplePlain)
         == Partitions([ExamplePlain], [Group("one", [ExampleOne1])])
    ensures Place(Partitions([ExamplePlain], [Group("one", [ExampleOne1])]), ExampleOne2)
         == Partitions([ExamplePlain], [Group("one", [ExampleOne1, ExampleOne2])])
    ensures Place(Partitions([ExamplePlain], [Group("one", [ExampleOne1, ExampleOne2])]), ExampleTwo)
         == Partitions([ExamplePlain], [Group("one", [ExampleOne1, ExampleOne2]), Group("two", [ExampleTwo])])
  {
    assert "one" != DefaultKey && "two" != DefaultKey && "two" != "one";
    assert [ExampleOne1] + [ExampleOne2] == [ExampleOne1, ExampleOne2];
  }

  /**
   * The partitioner's unit-test batch: `default` gets the ungrouped message,
   * `one` its two messages in order, `two` its one message.
   */
  lemma PartitionExample()
    ensures PartitionMessages([ExampleOne1, ExamplePlain, ExampleOne2, ExampleTwo])
         == Partitions([ExamplePlain], [Group("one", [ExampleOne1, ExampleOne2]), Group("two", [ExampleTwo])])
  {
    PlaceExampleSteps();
    var b0: seq<Message> := [];
    var b1 := b0 + [ExampleOne1];
    var b2 := b1 + [ExamplePlain];
    var b3 := b2 + [ExampleOne2];
    var b4 := b3 + [ExampleTwo];
    assert b4 == [ExampleOne1, ExamplePlain, ExampleOne2, ExampleTwo];
    assert PartitionMessages(b0) == Partitions([], []);
    PartitionSnoc(b0, ExampleOne1);
    PartitionSnoc(b1, ExamplePlain);
    PartitionSnoc(b2, ExampleOne2);
    PartitionSnoc(b3, ExampleTwo);
  }

  /** The loop's step: partitioning one more message places it into the partitions of the prefix. */
  lemma PartitionSnoc(prefix: seq<Message>, m: Message)
    ensures PartitionMessages(prefix + [m]) == Place(PartitionMessages(prefix), m)
  {
    assert (prefix + [m])[..|prefix|] == prefix;
  }

  /**
   * The group id whose partition the source cannot create: assigning
   * `partitions["__proto__"] = [message]` goes through the inherited
   * `__proto__` setter and replaces the object's prototype instead of adding
   * a key, and later messages of that group are pushed onto that hidden
   * array. `{ default, ...fifoPartitions }` copies own keys only.
   */
  const ProtoKey: string := "__proto__"

  /** One loop iteration as written: a "__proto__" message ends up where no caller sees it. */
  function PlaceAsWritten(p: Partitions, m: Message): Partitions {
    if !Ungrouped(m) && GroupId(m) == ProtoKey then p else Place(p, m)
  }

  /** `partitionMessages` as written, seen through the caller's destructuring. */
  function PartitionAsWritten(batch: seq<Message>): Partitions
    decreases |batch|
  {
    if batch == [] then Partitions([], [])
    else PlaceAsWritten(PartitionAsWritten(batch[..|batch| - 1]), batch[|batch| - 1])
  }

  /** A one-message batch in group "__proto__" partitions to nothing as written, while the batch has one message. */
  lemma ProtoGroupLost()
    ensures var m := Message("r1", Some(Attributes(Some(ProtoKey))), "body");
      && Flatten(PartitionAsWritten([m])) == []
      && Flatten(PartitionMessages([m])) == [m]
  {
    var m := Message("r1", Some(Attributes(Some(ProtoKey))), "body");
    assert [m][..0] == [];
    assert ProtoKey != DefaultKey;
    assert !Ungrouped(m) && GroupId(m) == ProtoKey;
    assert PartitionMessages([m]) == Place(Partitions([], []), m) == Partitions([], [Group(ProtoKey, [m])]);
    assert FlattenGroups([Group(ProtoKey, [m])]) == [m];
  }

  /** On every batch without a "__proto__" group the code as written and the corrected partitioner agree. */
  lemma {:induction false} AsWrittenAgrees(batch: seq<Message>)
    requires forall m :: m in batch ==> Key(m) != ProtoKey
    ensures PartitionAsWritten(batch) == PartitionMessages(batch)
    decreases |batch|
  {
    if batch != [] {
      var prefix := batch[..|batch| - 1];
      assert forall m :: m in prefix ==> m in batch;
      AsWrittenAgrees(prefix);
      assert batch[|batch| - 1] in batch;
    }
  }

  /** The messages of `batch` outside group "__proto__", in arrival order: what the code as written can see. */
  function Visible(batch: seq<Message>): seq<Message>
  {
    if batch == [] then []
    else Visible(batch[..|batch| - 1]) + (if Key(batch[|batch| - 1]) != ProtoKey then [batch[|batch| - 1]] else [])
  }

  /**
   * The partitioner as written is the corrected partitioner applied to the
   * batch without its "__proto__" messages: those, and only those, vanish.
   */
  lemma {:induction false} AsWrittenSeesVisible(batch: seq<Message>)
    ensures PartitionAsWritten(batch) == PartitionMessages(Visible(batch))
    decreases |batch|
  {
    if batch != [] {
      var prefix := batch[..|batch| - 1];
      var last := batch[|batch| - 1];
      AsWrittenSeesVisible(prefix);
      assert ProtoKey != DefaultKey;
      assert PartitionAsWritten(batch) == PlaceAsWritten(PartitionAsWritten(prefix), last);
      if Key(last) != ProtoKey {
        assert Visible(batch) == Visible(prefix) + [last];
        PartitionSnoc(Visible(prefix), last);
      } else {
        assert Visible(batch) == Visible(prefix) + [];
        assert Visible(prefix) + [] == Visible(prefix);
      }
    }
  }

  lemma {:induction false} VisibleMembers(batch: seq<Message>, x: Message)
    ensures x in Visible(batch) <==> x in batch && Key(x) != ProtoKey
    decreases |batch|
  {
    if batch != [] {
      var prefix := batch[..|batch| - 1];
      VisibleMembers(prefix, x);
      assert batch == prefix + [batch[|batch| - 1]];
    }
  }

  /** The batch splits into the visible messages and the "__proto__" group. */
  lemma {:induction false} VisibleSplit(batch: seq<Message>)
    ensures multiset(batch) == multiset(Visible(batch)) + multiset(Select(batch, ProtoKey))
    decreases |batch|
  {
    if batch != [] {
      var prefix := batch[..|batch| - 1];
      VisibleSplit(prefix);
      assert batch == prefix + [batch[|batch| - 1]];
    }
  }

  /** Outside the "__proto__" group the visible messages select exactly as the batch does. */
  lemma {:induction false} SelectVisible(batch: seq<Message>, k: string)
    requires k != ProtoKey
    ensures Select(Visible(batch), k) == Select(batch, k)
    decreases |batch|
  {
    if batch != [] {
      var prefix := batch[..|batch| - 1];
      var last := batch[|batch| - 1];
      SelectVisible(prefix, k);
      assert Select(batch, k) == Select(prefix, k) + (if Key(last) == k then [last] else []);
      if Key(last) != ProtoKey {
        assert Visible(batch) == Visible(prefix) + [last];
        SelectSnoc(Visible(prefix), last, k);
      } else {
        assert Visible(batch) == Visible(prefix) + [];
        assert Visible(prefix) + [] == Visible(prefix);
        assert Key(last) != k;
        assert Select(prefix, k) + [] == Select(prefix, k);
      }
    }
  }
}

=== FILE: pipeline.dfy ===
/**
 * The consumer with its default collaborators wired in: the dispatcher
 * uses the corrected partitioner (which keeps a `"__proto__"` group), the
 * default handleMessage and groupHandler, and the group runner uses the
 * default handleMessage (processMessages does not pass its own). Stated
 * here: what one dispatch and one poll cycle do with every message of a
 * batch, and, for the partitioner as the source writes it, which messages
 * a dispatch loses.
 */
module Pipeline {
  import opened Messages
  import opened Trace
  import opened Partition
  import opened FifoSort
  import opened MessageProcessor
  import opened GroupRunner
  import opened Dispatcher
  import opened Poller

  /** The default partitioner; over message records it never throws. */
  function DefaultPartition(batch: seq<Message>): Result<Partitions> {
    Success(PartitionMessages(batch))
  }

  /** groupHandler with its default handleMessage. */
  function DefaultGroupRunner(app: App): seq<Message> -> Step {
    messages => GroupRun(Processor(app), messages)
  }

  /** processMessages with the default collaborators and the configured comparator. */
  function DispatchBatch(app: App, cmp: Comparator, batch: seq<Message>): Dispatch {
    ProcessMessages(batch, DefaultPartition, Processor(app), DefaultGroupRunner(app), cmp)
  }

  /** The default dispatcher as the call a poll cycle makes. */
  function DispatchStep(app: App, cmp: Comparator): seq<Message> -> Step {
    batch => DispatchBatch(app, cmp, batch).step
  }

  /** One poll cycle with the default dispatcher. */
  function Cycle(app: App, cmp: Comparator, fetched: FetchResult, listeners: Listeners): Step {
    Poll(fetched, listeners, DispatchStep(app, cmp))
  }

  function Concat(runs: seq<seq<Message>>): seq<Message> {
    if runs == [] then [] else runs[0] + Concat(runs[1..])
  }

  /** The part of each group the runner hands to handleMessage, group after group. */
  function ProcessedPrefixes(app: App, runs: seq<seq<Message>>): seq<Message> {
    if runs == [] then []
    else runs[0][..Processed(Processor(app), runs[0])] + ProcessedPrefixes(app, runs[1..])
  }

  lemma {:induction false} ConcatAppend(a: seq<seq<Message>>, b: seq<seq<Message>>)
    ensures Concat(a + b) == Concat(a) + Concat(b)
    decreases |a|
  {
    if a == [] {
      assert a + b == b;
    } else {
      assert (a + b)[1..] == a[1..] + b;
      ConcatAppend(a[1..], b);
    }
  }

  lemma {:induction false} SortedGroupsConserve(cmp: Comparator, groups: seq<Group>)
    ensures multiset(Concat(SortGroups(cmp, groups))) == multiset(FlattenGroups(groups))
    decreases |groups|
  {
    if groups != [] {
      var runs := SortGroups(cmp, groups);
      assert runs[1..] == SortGroups(cmp, groups[1..]);
      SortedGroupsConserve(cmp, groups[1..]);
    }
  }

  lemma PrefixWithin(s: seq<Message>, k: nat)
    requires k <= |s|
    ensures multiset(s[..k]) <= multiset(s)
  {
    assert s == s[..k] + s[k..];
  }

  lemma {:induction false} PrefixesWithin(app: App, runs: seq<seq<Message>>)
    ensures multiset(ProcessedPrefixes(app, runs)) <= multiset(Concat(runs))
    decreases |runs|
  {
    if runs != [] {
      var k := Processed(Processor(app), runs[0]);
      PrefixWithin(runs[0], k);
      PrefixesWithin(app, runs[1..]);
    }
  }

  /** A trace whose notifications are not aborts contains no abort. */
  lemma {:induction false} NoAbortAmongEvents(trace: seq<Action>)
    requires forall e :: e in Emitted(trace) ==> !e.FifoProcessingAborted?
    ensures Aborts(trace) == []
    decreases |trace|
  {
    if trace != [] {
      CollectAppend([trace[0]], trace[1..], EventOf);
      CollectAppend([trace[0]], trace[1..], AbortOf);
      CollectOne(trace[0], EventOf);
      CollectOne(trace[0], AbortOf);
      assert [trace[0]] + trace[1..] == trace;
      NoAbortAmongEvents(trace[1..]);
    }
  }

  /** Calling handleMessage on each message invokes the user handler on exactly those messages, in order, and emits no abort. */
  lemma HandleEach(app: App, ms: seq<Message>)
    ensures HandlerCalls(Calls(ms, Processor(app), HandleMessageCall)) == ms
    ensures Aborts(Calls(ms, Processor(app), HandleMessageCall)) == []
  {
    forall i | 0 <= i < |ms|
      ensures HandlerCalls(Processor(app)(ms[i]).trace) == [ms[i]]
      ensures AbortOf(HandleMessageCall(ms[i])) == [] && Aborts(Processor(app)(ms[i]).trace) == []
    {
      assert Processor(app)(ms[i]) == HandleMessage(app, ms[i]);
      NoAbortAmongEvents(HandleMessage(app, ms[i]).trace);
    }
    EachHandledOnce(ms, Processor(app));
    CollectCallsEmpty(ms, Processor(app), HandleMessageCall, AbortOf);
  }

  /** Calls that each invoke the user handler once, on their own message, invoke it on the messages in order. */
  lemma {:induction false} EachHandledOnce(ms: seq<Message>, call: Message -> Step)
    requires forall i :: 0 <= i < |ms| ==> HandlerCalls(call(ms[i]).trace) == [ms[i]]
    ensures HandlerCalls(Calls(ms, call, HandleMessageCall)) == ms
    decreases |ms|
  {
    if ms != [] {
      var rest := Calls(ms[1..], call, HandleMessageCall);
      assert Calls(ms, call, HandleMessageCall) == [HandleMessageCall(ms[0])] + call(ms[0]).trace + rest;
      CollectTagged(HandleMessageCall(ms[0]), call(ms[0]).trace, rest, HandlerCallOf);
      assert forall i :: 1 <= i < |ms| ==> ms[i] == ms[1..][i - 1];
      EachHandledOnce(ms[1..], call);
      assert ms == [ms[0]] + ms[1..];
    }
  }

  /** The default handleMessage resolves, and stops a group exactly when processing failed. */
  lemma ProcessorSettles(app: App, m: Message)
    ensures Processor(app)(m).completion == Resolved(if Succeeds(app, m) then True else False)
    ensures Stops(Processor(app)(m).completion) <==> !Succeeds(app, m)
  {
    assert Processor(app)(m) == HandleMessage(app, m);
  }

  /**
   * With the default handleMessage a group runner never rejects; it invokes
   * the user handler on exactly the messages up to the first failure, in
   * order, all of which but the last succeeded, and emits one abort
   * notification exactly when some message failed, carrying the first
   * failing message and the whole group.
   */
  lemma GroupRunWithProcessor(app: App, ms: seq<Message>)
    ensures var r := GroupRun(Processor(app), ms);
      && r.completion == Resolved(Undefined)
      && HandlerCalls(r.trace) == ms[..Processed(Processor(app), ms)]
      && (forall j :: 0 <= j < Processed(Processor(app), ms) - 1 ==> Succeeds(app, ms[j]))
      && Aborts(r.trace) == (if FirstStop(Processor(app), ms) < |ms|
                             then [FifoProcessingAborted(ms[FirstStop(Processor(app), ms)], ms)] else [])
      && ((exists j :: 0 <= j < |ms| && !Succeeds(app, ms[j])) <==> FirstStop(Processor(app), ms) < |ms|)
  {
    var process := Processor(app);
    var k := FirstStop(process, ms);
    forall j | 0 <= j < |ms|
      ensures Stops(process(ms[j]).completion) <==> !Succeeds(app, ms[j])
    {
      ProcessorSettles(app, ms[j]);
    }
    GroupRunTrace(app, ms);
  }

  /** The processed calls, then the abort if a message failed. */
  function RunTrace(app: App, ms: seq<Message>): seq<Action> {
    var k := FirstStop(Processor(app), ms);
    Calls(ms[..Processed(Processor(app), ms)], Processor(app), HandleMessageCall)
      + (if k < |ms| then [Emit(FifoProcessingAborted(ms[k], ms))] else [])
  }

  /** With the default handleMessage the runner resolves `undefined` and its trace is `RunTrace`. */
  lemma GroupRunShape(app: App, ms: seq<Message>)
    ensures GroupRun(Processor(app), ms) == Step(Resolved(Undefined), RunTrace(app, ms))
  {
    forall i | 0 <= i < |ms|
      ensures Processor(app)(ms[i]).completion.Resolved?
    {
      assert Processor(app)(ms[i]) == HandleMessage(app, ms[i]);
    }
    RunWithoutRejection(Processor(app), ms);
  }

  /** Appending an abort notification adds it to the aborts and invokes no handler. */
  lemma AbortAppended(calls: seq<Action>, ev: Event)
    requires ev.FifoProcessingAborted?
    ensures HandlerCalls(calls + [Emit(ev)]) == HandlerCalls(calls)
    ensures Aborts(calls + [Emit(ev)]) == Aborts(calls) + [ev]
  {
    CollectAppend(calls, [Emit(ev)], HandlerCallOf);
    CollectAppend(calls, [Emit(ev)], AbortOf);
    CollectOne(Emit(ev), HandlerCallOf);
    CollectOne(Emit(ev), AbortOf);
  }

  /** The handler calls and abort notifications of `RunTrace`. */
  lemma RunTraceEvents(app: App, ms: seq<Message>)
    ensures HandlerCalls(RunTrace(app, ms)) == ms[..Processed(Processor(app), ms)]
    ensures Aborts(RunTrace(app, ms)) == (if FirstStop(Processor(app), ms) < |ms|
                                          then [FifoProcessingAborted(ms[FirstStop(Processor(app), ms)], ms)] else [])
  {
    var k := FirstStop(Processor(app), ms);
    var prefix := ms[..Processed(Processor(app), ms)];
    var calls := Calls(prefix, Processor(app), HandleMessageCall);
    HandleEach(app, prefix);
    if k < |ms| {
      assert RunTrace(app, ms) == calls + [Emit(FifoProcessingAborted(ms[k], ms))];
      AbortAppended(calls, FifoProcessingAborted(ms[k], ms));
    } else {
      assert RunTrace(app, ms) == calls + [];
      assert calls + [] == calls;
    }
  }

  /** The runner's trace with the default handleMessage: the processed calls, then the abort if a message failed. */
  lemma GroupRunTrace(app: App, ms: seq<Message>)
    ensures GroupRun(Processor(app), ms).completion == Resolved(Undefined)
    ensures HandlerCalls(GroupRun(Processor(app), ms).trace) == ms[..Processed(Processor(app), ms)]
    ensures Aborts(GroupRun(Processor(app), ms).trace) == (if FirstStop(Processor(app), ms) < |ms|
                                          then [FifoProcessingAborted(ms[FirstStop(Processor(app), ms)], ms)] else [])
  {
    GroupRunShape(app, ms);
    RunTraceEvents(app, ms);
  }

  /**
   * One dispatch with the default collaborators resolves `undefined`,
   * hands the default partition to handleMessage and every FIFO partition,
   * sorted, to a group runner.
   */
  lemma DispatchRuns(app: App, cmp: Comparator, batch: seq<Message>)
    ensures DispatchBatch(app, cmp, batch).step.completion == Resolved(Undefined)
    ensures DispatchBatch(app, cmp, batch).handled == PartitionMessages(batch).default
    ensures DispatchBatch(app, cmp, batch).runs == SortGroups(cmp, PartitionMessages(batch).groups)
  {
    var d := DispatchBatch(app, cmp, batch);
    var p := PartitionMessages(batch);
    assert DefaultPartition(batch) == Success(p);
    forall i | 0 <= i < |d.handled|
      ensures Processor(app)(d.handled[i]).completion.Resolved?
    {
      assert Processor(app)(d.handled[i]) == HandleMessage(app, d.handled[i]);
    }
    assert !AnyRejected(d.handled, Processor(app));
    forall i | 0 <= i < |d.runs|
      ensures DefaultGroupRunner(app)(d.runs[i]).completion.Resolved?
    {
      assert DefaultGroupRunner(app)(d.runs[i]) == GroupRun(Processor(app), d.runs[i]);
      GroupRunShape(app, d.runs[i]);
    }
    assert !AnyRejected(d.runs, DefaultGroupRunner(app));
  }

  /**
   * One dispatch with the default collaborators resolves `undefined`: every
   * default-partition message goes to handleMessage exactly once, in
   * arrival order, and every FIFO partition, sorted, to exactly one group
   * runner; together they hold each message of the batch exactly as often
   * as the batch does.
   */
  lemma DispatchCoversBatch(app: App, cmp: Comparator, batch: seq<Message>)
    ensures var d := DispatchBatch(app, cmp, batch);
      var p := PartitionMessages(batch);
      && d.step.completion == Resolved(Undefined)
      && d.handled == Select(batch, DefaultKey)
      && |d.runs| == |p.groups|
      && (forall i :: 0 <= i < |d.runs| ==> multiset(d.runs[i]) == multiset(Select(batch, p.groups[i].id)))
      && multiset(d.handled) + multiset(Concat(d.runs)) == multiset(batch)
  {
    DispatchRuns(app, cmp, batch);
    PartitionConserves(batch);
    SortedGroupsConserve(cmp, PartitionMessages(batch).groups);
  }

  /** A recorded call that is not itself a handler invocation contributes only the handler calls it made. */
  lemma TaggedCall(tag: Action, trace: seq<Action>, rest: seq<Action>)
    requires !tag.CallHandler?
    ensures HandlerCalls([tag] + trace + rest) == HandlerCalls(trace) + HandlerCalls(rest)
  {
    CollectTagged(tag, trace, rest, HandlerCallOf);
  }

  lemma {:induction false} RunEach(app: App, runs: seq<seq<Message>>)
    ensures HandlerCalls(Calls(runs, DefaultGroupRunner(app), GroupHandlerCall)) == ProcessedPrefixes(app, runs)
    decreases |runs|
  {
    if runs != [] {
      var step := DefaultGroupRunner(app)(runs[0]);
      assert step == GroupRun(Processor(app), runs[0]);
      var rest := Calls(runs[1..], DefaultGroupRunner(app), GroupHandlerCall);
      assert Calls(runs, DefaultGroupRunner(app), GroupHandlerCall) == [GroupHandlerCall(runs[0])] + step.trace + rest;
      GroupRunTrace(app, runs[0]);
      TaggedCall(GroupHandlerCall(runs[0]), step.trace, rest);
      RunEach(app, runs[1..]);
    }
  }

  /**
   * In one dispatch the user handler is invoked on every default-partition
   * message, then on the processed prefix of each sorted group, and on
   * nothing else: never on a message more often than the batch holds it.
   */
  lemma HandlerSeesBatch(app: App, cmp: Comparator, batch: seq<Message>)
    ensures var d := DispatchBatch(app, cmp, batch);
      && HandlerCalls(d.step.trace) == d.handled + ProcessedPrefixes(app, d.runs)
      && multiset(HandlerCalls(d.step.trace)) <= multiset(batch)
  {
    var d := DispatchBatch(app, cmp, batch);
    DispatchCoversBatch(app, cmp, batch);
    HandleEach(app, d.handled);
    RunEach(app, d.runs);
    CollectAppend(Calls(d.handled, Processor(app), HandleMessageCall),
                  Calls(d.runs, DefaultGroupRunner(app), GroupHandlerCall), HandlerCallOf);
    PrefixesWithin(app, d.runs);
  }

  /** The partitioner as the source writes it: a `"__proto__"` group never reaches the result. */
  function SourcePartition(batch: seq<Message>): Result<Partitions> {
    Success(PartitionAsWritten(batch))
  }

  /** processMessages with the source's own partitioner in place of the corrected one. */
  function DispatchAsWritten(app: App, cmp: Comparator, batch: seq<Message>): Dispatch {
    ProcessMessages(batch, SourcePartition, Processor(app), DefaultGroupRunner(app), cmp)
  }

  /**
   * As written, a dispatch behaves exactly like the corrected dispatch of
   * the batch with its `"__proto__"` messages removed.
   */
  lemma AsWrittenDispatchesVisible(app: App, cmp: Comparator, batch: seq<Message>)
    ensures DispatchAsWritten(app, cmp, batch) == DispatchBatch(app, cmp, Visible(batch))
  {
    AsWrittenSeesVisible(batch);
    assert SourcePartition(batch) == DefaultPartition(Visible(batch));
  }

  /**
   * As written, a dispatch still resolves `undefined` and hands the default
   * partition to handleMessage, but the runs and the handler calls cover
   * the batch minus its `"__proto__"` group: those messages are never
   * handled.
   */
  lemma AsWrittenDropsProtoGroup(app: App, cmp: Comparator, batch: seq<Message>)
    ensures var d := DispatchAsWritten(app, cmp, batch);
      && d.step.completion == Resolved(Undefined)
      && d.handled == Select(batch, DefaultKey)
      && multiset(d.handled) + multiset(Concat(d.runs)) == multiset(batch) - multiset(Select(batch, ProtoKey))
      && multiset(HandlerCalls(d.step.trace)) <= multiset(batch) - multiset(Select(batch, ProtoKey))
      && (forall m :: m in HandlerCalls(d.step.trace) ==> Key(m) != ProtoKey)
  {
    var v := Visible(batch);
    AsWrittenDispatchesVisible(app, cmp, batch);
    DispatchCoversBatch(app, cmp, v);
    HandlerSeesBatch(app, cmp, v);
    SelectVisible(batch, DefaultKey);
    VisibleSplit(batch);
    assert multiset(v) == multiset(batch) - multiset(Select(batch, ProtoKey));
    var calls := HandlerCalls(DispatchBatch(app, cmp, v).step.trace);
    forall m | m in calls
      ensures Key(m) != ProtoKey
    {
      assert m in multiset(calls);
      assert m in multiset(v);
      VisibleMembers(batch, m);
    }
  }

  /**
   * One poll cycle with the default dispatcher calls processMessages once,
   * with the fetched batch, exactly when the fetch returned a non-empty
   * batch, and never otherwise.
   */
  lemma CycleProcessesOnce(app: App, cmp: Comparator, fetched: FetchResult, listeners: Listeners)
    ensures ProcessCalls(Cycle(app, cmp, fetched, listeners).trace)
         == (if fetched.Fetched? && fetched.messages != [] then [fetched.messages] else [])
  {
    if fetched.Fetched? {
      assert DispatchStep(app, cmp)(fetched.messages) == DispatchBatch(app, cmp, fetched.messages).step;
      DispatchMakesNoProcessCall(app, cmp, fetched.messages);
    }
    PollProcessesOnce(fetched, listeners, DispatchStep(app, cmp));
  }

  /**
   * In one poll cycle with the default dispatcher the user handler is
   * invoked only when the fetch returned a non-empty batch, and then
   * exactly as one dispatch of that batch invokes it.
   */
  lemma CycleHandlesOnlyFetched(app: App, cmp: Comparator, fetched: FetchResult, listeners: Listeners)
    ensures fetched.Fetched? && fetched.messages != [] ==>
      HandlerCalls(Cycle(app, cmp, fetched, listeners).trace) == HandlerCalls(DispatchBatch(app, cmp, fetched.messages).step.trace)
    ensures !(fetched.Fetched? && fetched.messages != []) ==> HandlerCalls(Cycle(app, cmp, fetched, listeners).trace) == []
  {
    if fetched.Fetched? {
      assert DispatchStep(app, cmp)(fetched.messages) == DispatchBatch(app, cmp, fetched.messages).step;
    }
    PollHandlesOnlyFetched(fetched, listeners, DispatchStep(app, cmp));
  }

  /** A cycle with the default dispatcher rejects exactly when a fetch failure is reported through an `error` notification nobody listens for. */
  lemma CycleRejection(app: App, cmp: Comparator, fetched: FetchResult, listeners: Listeners)
    ensures Cycle(app, cmp, fetched, listeners).completion.Rejected?
        <==> fetched.FetchFailed? && listeners.requestError == 0 && listeners.error == 0
  {
    if fetched.Fetched? {
      assert DispatchStep(app, cmp)(fetched.messages) == DispatchBatch(app, cmp, fetched.messages).step;
      DispatchCoversBatch(app, cmp, fetched.messages);
    }
  }

  /** A dispatch never calls processMessages again. */
  lemma DispatchMakesNoProcessCall(app: App, cmp: Comparator, batch: seq<Message>)
    ensures ProcessCalls(DispatchBatch(app, cmp, batch).step.trace) == []
  {
    var d := DispatchBatch(app, cmp, batch);
    HandleNoProcessCall(app, d.handled);
    forall i | 0 <= i < |d.runs|
      ensures ProcessCallOf(GroupHandlerCall(d.runs[i])) == []
      ensures ProcessCalls(DefaultGroupRunner(app)(d.runs[i]).trace) == []
    {
      assert DefaultGroupRunner(app)(d.runs[i]) == GroupRun(Processor(app), d.runs[i]);
      RunMakesNoProcessCall(app, d.runs[i]);
    }
    CollectCallsEmpty(d.runs, DefaultGroupRunner(app), GroupHandlerCall, ProcessCallOf);
    CollectAppend(Calls(d.handled, Processor(app), HandleMessageCall),
                  Calls(d.runs, DefaultGroupRunner(app), GroupHandlerCall), ProcessCallOf);
  }

  /** Calling handleMessage on each message never calls processMessages. */
  lemma HandleNoProcessCall(app: App, ms: seq<Message>)
    ensures ProcessCalls(Calls(ms, Processor(app), HandleMessageCall)) == []
  {
    forall i | 0 <= i < |ms|
      ensures ProcessCallOf(HandleMessageCall(ms[i])) == []
      ensures ProcessCalls(Processor(app)(ms[i]).trace) == []
    {
      assert Processor(app)(ms[i]) == HandleMessage(app, ms[i]);
    }
    CollectCallsEmpty(ms, Processor(app), HandleMessageCall, ProcessCallOf);
  }

  /** A group runner with the default handleMessage never calls processMessages. */
  lemma RunMakesNoProcessCall(app: App, ms: seq<Message>)
    ensures ProcessCalls(GroupRun(Processor(app), ms).trace) == []
  {
    GroupRunShape(app, ms);
    var k := FirstStop(Processor(app), ms);
    var calls := Calls(ms[..Processed(Processor(app), ms)], Processor(app), HandleMessageCall);
    HandleNoProcessCall(app, ms[..Processed(Processor(app), ms)]);
    if k < |ms| {
      var ev := Emit(FifoProcessingAborted(ms[k], ms));
      assert RunTrace(app, ms) == calls + [ev];
      CollectAppend(calls, [ev], ProcessCallOf);
      CollectOne(ev, ProcessCallOf);
    } else {
      assert RunTrace(app, ms) == calls + [];
      assert calls + [] == calls;
    }
  }
}

=== FILE: poller.dfy ===
/**
 * One poll cycle (`poller`): fetch a batch, report a fetch failure, skip an
 * empty batch, or announce the batch and dispatch it.
 */
module Poller {
  import opened Messages
  import opened Trace

  /** What `getMessages` returns: `{ error }` or `{ value: messages }`. */
  datatype FetchResult = FetchFailed(error: Error) | Fetched(messages: seq<Message>)

  /**
   * `getMessages` around the receive call: a rejected call becomes
   * `FetchFailed`, and a response without `Messages` an empty batch.
   */
  function GetMessages(response: Result<Option<seq<Message>>>): (r: FetchResult)
    ensures response.Failure? <==> r.FetchFailed?
    ensures response.Failure? ==> r.error == response.error
    ensures response.Success? && response.value.Some? ==> r == Fetched(response.value.value)
    ensures response.Success? && response.value.None? ==> r == Fetched([])
  {
    match response
    case Failure(e) => FetchFailed(e)
    case Success(None) => Fetched([])
    case Success(Some(messages)) => Fetched(messages)
  }

  /** How many listeners the app has for the two error notifications (`app.listenerCount`). */
  datatype Listeners = Listeners(requestError: nat, error: nat)

  const RequestErrorName: string := "request-error"

  /**
   * `poller`. A fetch failure reads the `request-error` listener count and
   * emits exactly one notification: `request-error` when someone listens
   * for it, `error` otherwise; emitting `error` with no `error` listener
   * throws, so the cycle then rejects with the fetch error. An empty batch
   * does nothing at all. A non-empty batch emits `received-messages` with
   * the batch and then calls processMessages once with that same batch,
   * passing on a rejection. In every other case the cycle resolves
   * `undefined`.
   */
  function Poll(fetched: FetchResult, listeners: Listeners, process: seq<Message> -> Step): (r: Step)
    ensures fetched.FetchFailed? ==>
      && r.trace == [QueryListeners(RequestErrorName),
                     Emit(if listeners.requestError > 0 then RequestError(fetched.error) else ErrorEvent(fetched.error))]
      && (r.completion.Rejected? <==> listeners.requestError == 0 && listeners.error == 0)
    ensures fetched == Fetched([]) ==> r == Step(Resolved(Undefined), [])
    ensures fetched.Fetched? && fetched.messages != [] ==>
      && r.trace == [Emit(ReceivedMessages(fetched.messages)), CallProcessMessages(fetched.messages)]
                    + process(fetched.messages).trace
      && (r.completion.Rejected? <==> process(fetched.messages).completion.Rejected?)
    ensures r.completion.Rejected? ==>
      r.completion == (if fetched.FetchFailed? then Rejected(fetched.error) else process(fetched.messages).completion)
    ensures r.completion.Resolved? ==> r.completion.value == Undefined
  {
    match fetched
    case FetchFailed(e) =>
      if listeners.requestError > 0 then
        Step(Resolved(Undefined), [QueryListeners(RequestErrorName), Emit(RequestError(e))])
      else
        Step(if listeners.error > 0 then Resolved(Undefined) else Rejected(e),
             [QueryListeners(RequestErrorName), Emit(ErrorEvent(e))])
    case Fetched(messages) =>
      if |messages| == 0 then Step(Resolved(Undefined), [])
      else
        var dispatched := process(messages);
        Step(if dispatched.completion.Rejected? then dispatched.completion else Resolved(Undefined),
             [Emit(ReceivedMessages(messages)), CallProcessMessages(messages)] + dispatched.trace)
  }

  /** A cycle calls processMessages once, with the fetched batch, exactly when that batch is non-empty, provided processMessages itself never calls it again. */
  lemma PollProcessesOnce(fetched: FetchResult, listeners: Listeners, process: seq<Message> -> Step)
    requires fetched.Fetched? ==> ProcessCalls(process(fetched.messages).trace) == []
    ensures ProcessCalls(Poll(fetched, listeners, process).trace)
         == (if fetched.Fetched? && fetched.messages != [] then [fetched.messages] else [])
  {
    var r := Poll(fetched, listeners, process);
    match fetched
    case FetchFailed(e) =>
      CollectTwo(r.trace[0], r.trace[1], ProcessCallOf);
    case Fetched(ms) =>
      if ms != [] {
        var head := [Emit(ReceivedMessages(ms)), CallProcessMessages(ms)];
        CollectAppend(head, process(ms).trace, ProcessCallOf);
        CollectTwo(head[0], head[1], ProcessCallOf);
      }
  }

  /** The user handler is invoked in a cycle only through processMessages on a non-empty batch. */
  lemma PollHandlesOnlyFetched(fetched: FetchResult, listeners: Listeners, process: seq<Message> -> Step)
    ensures fetched.Fetched? && fetched.messages != [] ==>
      HandlerCalls(Poll(fetched, listeners, process).trace) == HandlerCalls(process(fetched.messages).trace)
    ensures !(fetched.Fetched? && fetched.messages != []) ==> HandlerCalls(Poll(fetched, listeners, process).trace) == []
  {
    var r := Poll(fetched, listeners, process);
    match fetched
    case FetchFailed(e) =>
      CollectTwo(r.trace[0], r.trace[1], HandlerCallOf);
    case Fetched(ms) =>
      if ms != [] {
        var head := [Emit(ReceivedMessages(ms)), CallProcessMessages(ms)];
        CollectAppend(head, process(ms).trace, HandlerCallOf);
        CollectTwo(head[0], head[1], HandlerCallOf);
      }
  }
}

=== FILE: trace.dfy ===
/**
 * Observable behaviour as a trace: the calls the consumer makes and the
 * notifications it emits, in order, plus how each awaited call settled.
 */
module Trace {
  import opened Messages

  /** What an awaited call resolves with; `Undefined` stands for every value other than the two booleans. */
  datatype Value = True | False | Undefined

  /** A settled promise. */
  datatype Completion = Resolved(value: Value) | Rejected(error: Error)

  /** The parameters of `sqs.deleteMessage`. */
  datatype DeleteRequest = DeleteRequest(queueUrl: string, receiptHandle: string)

  /** The notifications of the event surface, one constructor per event name. */
  datatype Event =
    | ErrorEvent(error: Error)                                          // 'error'
    | RequestError(error: Error)                                        // 'request-error'
    | ReceivedMessages(messages: seq<Message>)                          // 'received-messages'
    | HandledMessage(message: Message)                                  // 'handled-message'
    | ProcessingError(error: Error, message: Message)                   // 'processing-error'
    | FifoProcessingAborted(message: Message, messages: seq<Message>)   // 'fifo-processing-aborted'

  /** One observable step. */
  datatype Action =
    | CallHandler(message: Message)                  // the user handler is invoked
    | CallDelete(request: DeleteRequest)             // sqs.deleteMessage is invoked
    | CallHandleMessage(message: Message)            // handleMessage is invoked
    | CallGroupHandler(messages: seq<Message>)       // groupHandler is invoked
    | CallProcessMessages(messages: seq<Message>)    // processMessages is invoked
    | QueryListeners(name: string)                   // app.listenerCount(name) is read
    | Emit(event: Event)                             // app.emit(...)

  /** The invocation of handleMessage, as a function the call combinators can take. */
  function HandleMessageCall(m: Message): Action { CallHandleMessage(m) }

  /** The invocation of groupHandler, as a function the call combinators can take. */
  function GroupHandlerCall(messages: seq<Message>): Action { CallGroupHandler(messages) }

  /** A call that has settled, with everything it did on the way. */
  datatype Step = Step(completion: Completion, trace: seq<Action>)

  /** The elements `pick` extracts from each action, in trace order. */
  function Collect<T>(trace: seq<Action>, pick: Action -> seq<T>): seq<T>
  {
    if trace == [] then [] else pick(trace[0]) + Collect(trace[1..], pick)
  }

  function EventOf(a: Action): seq<Event> {
    if a.Emit? then [a.event] else []
  }

  function HandlerCallOf(a: Action): seq<Message> {
    if a.CallHandler? then [a.message] else []
  }

  function DeleteOf(a: Action): seq<DeleteRequest> {
    if a.CallDelete? then [a.request] else []
  }

  function HandleMessageCallOf(a: Action): seq<Message> {
    if a.CallHandleMessage? then [a.message] else []
  }

  function AbortOf(a: Action): seq<Event> {
    if a.Emit? && a.event.FifoProcessingAborted? then [a.event] else []
  }

  function ProcessCallOf(a: Action): seq<seq<Message>> {
    if a.CallProcessMessages? then [a.messages] else []
  }

  /** The notifications a trace emits, in order. */
  function Emitted(trace: seq<Action>): seq<Event> { Collect(trace, EventOf) }

  /** The messages the user handler is invoked with, in order. */
  function HandlerCalls(trace: seq<Action>): seq<Message> { Collect(trace, HandlerCallOf) }

  /** The delete requests issued, in order. */
  function Deletes(trace: seq<Action>): seq<DeleteRequest> { Collect(trace, DeleteOf) }

  /** The `fifo-processing-aborted` notifications of a trace. */
  function Aborts(trace: seq<Action>): seq<Event> { Collect(trace, AbortOf) }

  /** The batches processMessages is called with. */
  function ProcessCalls(trace: seq<Action>): seq<seq<Message>> { Collect(trace, ProcessCallOf) }

  lemma {:induction false} CollectAppend<T>(a: seq<Action>, b: seq<Action>, pick: Action -> seq<T>)
    ensures Collect(a + b, pick) == Collect(a, pick) + Collect(b, pick)
    decreases |a|
  {
    if a == [] {
      assert a + b == b;
    } else {
      assert (a + b)[1..] == a[1..] + b;
      CollectAppend(a[1..], b, pick);
    }
  }

  lemma CollectOne<T>(a: Action, pick: Action -> seq<T>)
    ensures Collect([a], pick) == pick(a)
  {
    assert [a][1..] == [];
  }

  lemma CollectTwo<T>(a: Action, b: Action, pick: Action -> seq<T>)
    ensures Collect([a, b], pick) == pick(a) + pick(b)
  {
    assert [a, b][1..] == [b];
    assert [b][1..] == [];
    assert Collect([b], pick) == pick(b) + Collect([], pick) == pick(b);
  }

  lemma CollectThree<T>(a: Action, b: Action, c: Action, pick: Action -> seq<T>)
    ensures Collect([a, b, c], pick) == pick(a) + pick(b) + pick(c)
  {
    assert [a, b, c][1..] == [b, c];
    CollectTwo(b, c, pick);
  }

  /**
   * Calls made one after another: for each element in order, the call is
   * recorded with `tag` and followed by everything the call did.
   */
  function Calls<T>(xs: seq<T>, call: T -> Step, tag: T -> Action): seq<Action>
  {
    if xs == [] then [] else [tag(xs[0])] + call(xs[0]).trace + Calls(xs[1..], call, tag)
  }

  lemma {:induction false} CallsAppend<T>(xs: seq<T>, ys: seq<T>, call: T -> Step, tag: T -> Action)
    ensures Calls(xs + ys, call, tag) == Calls(xs, call, tag) + Calls(ys, call, tag)
    decreases |xs|
  {
    if xs == [] {
      assert xs + ys == ys;
    } else {
      assert (xs + ys)[1..] == xs[1..] + ys;
      CallsAppend(xs[1..], ys, call, tag);
    }
  }

  /** A recorded call that `pick` ignores contributes only what its own trace yields. */
  lemma CollectTagged<T>(tag: Action, trace: seq<Action>, rest: seq<Action>, pick: Action -> seq<T>)
    requires pick(tag) == []
    ensures Collect([tag] + trace + rest, pick) == Collect(trace, pick) + Collect(rest, pick)
  {
    CollectAppend([tag] + trace, rest, pick);
    CollectAppend([tag], trace, pick);
    CollectOne(tag, pick);
  }

  /** When neither the tags nor the calls' own traces yield anything, the sequence of calls yields nothing. */
  lemma {:induction false} CollectCallsEmpty<T, U>(xs: seq<T>, call: T -> Step, tag: T -> Action, pick: Action -> seq<U>)
    requires forall i :: 0 <= i < |xs| ==> pick(tag(xs[i])) == [] && Collect(call(xs[i]).trace, pick) == []
    ensures Collect(Calls(xs, call, tag), pick) == []
    decreases |xs|
  {
    if xs != [] {
      var rest := Calls(xs[1..], call, tag);
      CollectAppend([tag(xs[0])] + call(xs[0]).trace, rest, pick);
      CollectAppend([tag(xs[0])], call(xs[0]).trace, pick);
      CollectOne(tag(xs[0]), pick);
      assert forall i :: 1 <= i < |xs| ==> xs[i] == xs[1..][i - 1];
      CollectCallsEmpty(xs[1..], call, tag, pick);
    }
  }

  /**
   * `e` is the error of the first call, in list order, that rejects: every
   * call before it resolved. At most one element can be that call.
   */
  ghost predicate RejectsFirst<T>(xs: seq<T>, call: T -> Step, e: Error) {
    exists i :: 0 <= i < |xs| && call(xs[i]).completion == Rejected(e)
              && forall j :: 0 <= j < i ==> call(xs[j]).completion.Resolved?
  }

  function FirstRejection<T>(xs: seq<T>, call: T -> Step): (r: Option<Error>)
    ensures r.None? <==> forall i :: 0 <= i < |xs| ==> call(xs[i]).completion.Resolved?
    ensures r.Some? ==> RejectsFirst(xs, call, r.value)
  {
    if xs == [] then None
    else if call(xs[0]).completion.Rejected? then Some(call(xs[0]).completion.error)
    else
      var rest := FirstRejection(xs[1..], call);
      assert forall i :: 1 <= i < |xs| ==> xs[i] == xs[1..][i - 1];
      rest
  }

  /**
   * `Promise.all` over calls started together: every element is called
   * exactly once, and the combined promise settles only after all of them,
   * rejected with the first rejection (in list order) if any, otherwise
   * resolved. Interleavings are not modelled: the trace lists the calls one
   * after another.
   */
  function All<T>(xs: seq<T>, call: T -> Step, tag: T -> Action): (r: Step)
    ensures r.trace == Calls(xs, call, tag)
    ensures r.completion.Rejected? <==> exists i :: 0 <= i < |xs| && call(xs[i]).completion.Rejected?
    ensures r.completion.Rejected? ==> RejectsFirst(xs, call, r.completion.error)
    ensures r.completion.Resolved? ==> r.completion.value == Undefined
  {
    match FirstRejection(xs, call)
    case Some(e) => Step(Rejected(e), Calls(xs, call, tag))
    case None => Step(Resolved(Undefined), Calls(xs, call, tag))
  }
}
